=== FILE: README.md ===
# gp record-cleaning engine in Dafny

This project models the declarative record-cleaning engine of the `gp` repository
(`ModelInterface/__init__.py`) and four field transforms from its driver script (`main.py`).

- A **model** is an ordered list of field rules, with an optional **interface** bound to it.
- `model.match` builds a fresh record that holds exactly the model's fields. A field whose
  lookup or rule raises `KeyError` or `TypeError` becomes `None`. Any other error aborts the match.
- `model.parse` first runs the bound interface's source-specific table over the raw record,
  in place, and then runs `match`.
- `interface.match` selects a table by the value of the selector field and rewrites each
  listed field through the steps that table lists for it.
- `trigger` folds a list of steps over one value. `blocklist` parses every element of a list
  with a sub-model.
- `parse_bool`, `parse_str` and `parse_list` are small coercions.
- `metal`, `as_is`, `split` and `match` of `main.py` are list transforms built on the engine.

Modules:

- `PyText` (pytext.dfy): the string methods the code relies on: `strip`, `lower`, `title`,
  substring search and `replace(t, '')`, and decimal printing.
- `Values` (values.dfy): JSON-like values with insertion-ordered dictionaries, and the
  exception hierarchy. `InterfaceError` and its two subclasses are `KeyError`s.
  Also `v[k]`, `v[k] = x`, iteration, truthiness, key equality (`True == 1`), and `str()`/`repr()`.
  Also the two loop shapes the code uses: `MapEach` maps a raising function over a sequence
  and stops at the first error; `Thread` does the same while carrying a state that each step
  changes, as `split` carries an element that every parse rewrites in place.
- `ModelInterface` (engine.dfy): steps, models, interfaces and the engine operations.
  In-place mutation is modelled by returning the updated record.
- `ModelInterfaceFacts` (engine_facts.dfy): properties that relate several calls.
- `Parsers` (parsers.dfy): `parse_bool`, `parse_str` and `parse_list`.
- `MainHelpers` and `MainHelpersFacts` (helpers.dfy, helpers_facts.dfy): `metal`, `as_is`,
  `split` and `match`. Their regular expressions become parameters: a splitter from a string
  to its pieces, and a searcher from a string to the text of its first match.

A computation either returns a value or raises: `Outcome = Ok(value) | Raise(error)`.
A field rule, a trigger step and an interface step share one datatype:

- `Simple(f)`: a bare callable.
- `Configured(g, kwargs)`: a pair.
- `BlockList(sub)`: `(blocklist, {"model": sub})`.
- `Trigger(steps)`: `(trigger, {"tlist": steps})`.

Because sub-models are structural children of steps, the recursion parse → blocklist → parse
is well-founded.

Behaviours of the code that are easy to get wrong, each modelled as the code has it:

- **Block-list errors.** A block list does not isolate its elements: the first element whose
  parse raises an error that `match` lets through aborts the whole list. That error is the
  one the block list raises.
- **Interface errors inside a sub-model.** All interface errors are `KeyError`s. So an
  interface failure inside a sub-model reached through a field rule is absorbed by the
  enclosing `match`: the field becomes `None` and the failure is not fatal.
- **Interface table steps.** A step listed in an interface table is applied as
  `f[0](source[k], **f[1])`. A bare callable there raises `TypeError`, because it is not
  subscriptable. It does not act as a one-step pipeline.
- **Order of binding checks.** `setinterface` checks the capabilities before the field sets,
  so an incapable object raises `AttributeError` even if its tables would not fit. The
  constructor calls it only for an interface that is true in a boolean context, so a false
  one such as `{}` is skipped without any check.
- **Non-dictionary sources.** For a source that is not a dictionary, `value[m]` raises
  `TypeError`, so `match` nulls every field. `interface.match` lets that `TypeError` through.
- **`parse_bool` window.** `parse_bool` cuts `str(value)` to six characters before
  stripping. So `"   True"` (three leading blanks) parses to `None`, while `"  True"` parses
  to `True`.

## Model

| member | source | states |
|---|---|---|
| ModelInterfaceFacts.TriggerIsLeftFold | ModelInterface/__init__.py:43-51 | `trigger` equals the fold written from the last step backwards: an empty list returns the value, the last step receives the result of all the steps before it, a bare callable is applied as `t(v)` and a pair as `t[0](v, **t[1])` |
| ModelInterfaceFacts.TriggerAppend | ModelInterface/__init__.py:43-51 | running the list `a + b` is running `a` and then `b` on its result; an error raised in `a` skips every step of `b` |
| ModelInterface.RunBlockList | ModelInterface/__init__.py:61-66 | a non-iterable value raises `TypeError`; for a list, the result is a list of the same length whose element `i` is the sub-model's parse of element `i`, and it succeeds exactly when every element parses |
| ModelInterface.ParseEach | ModelInterface/__init__.py:62-64 | the elements are parsed in order; the error raised is the one of the first element whose parse fails, and every earlier element parsed |
| ModelInterfaceFacts.ParseEachFirstError | ModelInterface/__init__.py:62-64 | if element `k` is the first whose parse fails, the block list raises exactly element `k`'s error |
| ModelInterface.NewModel | ModelInterface/__init__.py:87-91 | a model starts with no interface; a given interface is checked and bound only when it is true in a boolean context, so a false object such as `{}` is skipped without error; an interface ends up bound exactly when a true, capable candidate has every table within the model's fields, and any error comes from `setinterface` on such a candidate |
| ModelInterface.SetInterface | ModelInterface/__init__.py:100-115 | raises `AttributeError` exactly when the object lacks a dict `mapping` or a callable `match`; otherwise raises exactly when some table lists a field outside the model, and then it is `BadInterfaceError` naming the first such table's selector value and its extra fields; on success the fields are kept and the interface is bound |
| ModelInterface.FirstMisfit | ModelInterface/__init__.py:108-110 | finds the first table, in mapping order, whose field set is not a subset of the model's field set; every earlier table fits |
| ModelInterfaceFacts.SetInterfaceDependsOnFields | ModelInterface/__init__.py:107-115 | whether a bind succeeds depends only on the model's fields, not on the interface bound before; binding an accepted interface again changes nothing |
| ModelInterfaceFacts.LastAcceptedBindWins | ModelInterface/__init__.py:108-115 | after a series of binds whose failures are caught, the last accepted interface is the bound one; if none was accepted the previous interface stays; the fields never change |
| ModelInterface.FieldValue | ModelInterface/__init__.py:127-140 | a field whose source lookup fails becomes `None`; when the lookup succeeds, the result is the rule's result on the looked-up value, except that a rule error that is a `KeyError`, one of its subclasses, or a `TypeError` becomes `None`; an error this field lets through is never one of those |
| ModelInterface.MatchFields | ModelInterface/__init__.py:125-140 | the field loop succeeds exactly when no field's cleaned value raises; when it raises, the error is that of the first field that raises |
| ModelInterface.MatchFieldsAppends | ModelInterface/__init__.py:123-142 | with distinct field names, the loop appends exactly one member per field to the record it starts from, in model order, each holding that field's cleaned value or `None` |
| ModelInterface.Match | ModelInterface/__init__.py:118-142 | `match` succeeds exactly when no field lets an error through, and then returns a dictionary; a failure is the first field's error that is neither a `KeyError` nor a `TypeError`; with distinct field names the result holds exactly the cleaned fields, in model order |
| ModelInterfaceFacts.MatchFieldIsRuleResult | ModelInterface/__init__.py:125-140 | with distinct field names, member `i` of a successful `match` is field `i`'s name holding its rule's result on `value[m]`, or `None` when the lookup or the rule raises |
| ModelInterfaceFacts.MatchRaisesRuleError | ModelInterface/__init__.py:125-140 | when every earlier field cleans without error and field `i`'s rule raises an error that is neither a `KeyError` (or subclass) nor a `TypeError`, `match` raises exactly that error |
| ModelInterfaceFacts.MatchKeysAreModelKeys | ModelInterface/__init__.py:123-142 | the keys of `match`'s result are exactly the model's field names, in model order, whatever keys the source has |
| ModelInterfaceFacts.MatchMissingKeyIsNull | ModelInterface/__init__.py:133-135 | a field whose key is missing from the source is `None` in the result, at its position in model order |
| ModelInterfaceFacts.MatchOfNonRecord | ModelInterface/__init__.py:127-140 | `match` of something that is not a dictionary succeeds, and every field is `None` |
| ModelInterfaceFacts.MatchIgnoresOtherKeys | ModelInterface/__init__.py:125-131 | two sources that agree on the model's keys give the same result: other keys are dropped and cannot influence it |
| ModelInterfaceFacts.ParsePhases | ModelInterface/__init__.py:152-156 | without an interface, `parse` is `match`; with one, an interface failure is raised before any field is cleaned, and a successful parse is `match` of the record the interface left |
| ModelInterfaceFacts.ParseInterfaceErrors | ModelInterface/__init__.py:183-193 | `parse` raises `InterfaceError` naming the selector when the record lacks the selector key, and `InterfaceNotFoundError` naming the value when no table is registered for it |
| ModelInterfaceFacts.NestedInterfaceFailureIsAbsorbed | ModelInterface/__init__.py:8-25 | a sub-model's missing selector key inside a block list makes the block list raise `InterfaceError`, and the enclosing field becomes `None` instead of failing the record |
| ModelInterface.FindTable | ModelInterface/__init__.py:192 | finds the first table whose selector value equals the record's by Python `==`, so `True` selects a table registered under `1`; no earlier table matches |
| ModelInterface.InterfaceMatch | ModelInterface/__init__.py:183-202 | a source that is not a dictionary raises `TypeError`; a missing selector key raises `InterfaceError`; an unhashable selector value raises `TypeError`; an unregistered value raises `InterfaceNotFoundError`; a successful pass returns a dictionary with the same keys in the same order |
| ModelInterface.RunTable | ModelInterface/__init__.py:196-200 | the table's pass keeps the record's keys and their order, and leaves every field the table does not list unchanged |
| ModelInterface.RunFieldSteps | ModelInterface/__init__.py:198-200 | the steps for one field change only that field and keep the record's keys |
| ModelInterfaceFacts.FieldStepsAreOneUpdate | ModelInterface/__init__.py:198-200 | rewriting `source[k]` once per step is the same as assigning, once, the fold of the steps over the old value; a bare callable step raises `TypeError` |
| ModelInterfaceFacts.RunTableFieldwise | ModelInterface/__init__.py:196-200 | with distinct listed fields, each listed field ends with its own steps folded over its original value |
| ModelInterfaceFacts.InterfaceMatchAppliesTable | ModelInterface/__init__.py:192-202 | a successful `interface.match` runs the table registered under the selector value: unlisted keys keep their values, and each listed field ends with the fold of its steps |
| ModelInterfaceFacts.EmptyTableLeavesSource | ModelInterface/__init__.py:196-202 | a registered table with no fields returns the source unchanged |
| ModelInterface.IdAfterMatch | ModelInterface/__init__.py:183-193 | whenever the selector lookup succeeds the remembered id is the selector value, registered or not; after a successful pass it names a registered table; a failed lookup keeps the previous id |
| Values.GetItem | ModelInterface/__init__.py:129 | `v[k]` raises `TypeError` on a non-dictionary and `KeyError` exactly when the key is absent; a found value is the one stored under `k` |
| Values.SetItem | ModelInterface/__init__.py:200 | after `d[k] = x`, `d[k]` is `x` and every other key looks up as before; an existing key keeps its place and a new key goes last |
| Values.SetItemTwice | ModelInterface/__init__.py:200 | assigning a key twice is the same as assigning it once, with the second value |
| Values.Iterate | ModelInterface/__init__.py:62 | iteration raises `TypeError` exactly for `None`, booleans and integers; a list yields its items, a string one single-character string per character, and a dictionary its keys, in insertion order |
| Values.Show | ModelInterface/__init__.py:232 | `str()` of a string is the string itself; that of a list starts with `[` and that of a dictionary with `{` |
| Parsers.Window | ModelInterface/__init__.py:242 | the slice `[:6]` is the prefix of length `min(len, 6)` |
| Parsers.ParseBool | ModelInterface/__init__.py:239-252 | the result is only `True`, `False` or `None`; it is `True` exactly when the token (the first six characters of `str(value)`, stripped and title-cased) is `1` or `True`, and `False` exactly when it is `0` or `False` |
| Parsers.ParseBoolOfBool | ModelInterface/__init__.py:242-252 | booleans parse to themselves |
| Parsers.ParseBoolOfInt | ModelInterface/__init__.py:242-252 | an integer parses to `True` if it is 1, `False` if it is 0, and `None` otherwise |
| Parsers.ParseBoolOfNull | ModelInterface/__init__.py:242-252 | `None` parses to `None` |
| Parsers.ParseBoolOfContainer | ModelInterface/__init__.py:242-252 | lists and dictionaries parse to `None` |
| Parsers.ParseBoolIgnoresCase | ModelInterface/__init__.py:242 | any spelling of `true` or `false` in letters of either case, up to six letters, parses to that boolean |
| Parsers.ParseBoolLeadingBlanks | ModelInterface/__init__.py:242 | `True` after `k` blanks parses to `True` for `k <= 2` and to `None` otherwise, because the cut comes before the strip |
| Parsers.ParseBoolIdempotent | ModelInterface/__init__.py:239-252 | parsing the result again gives the same result |
| Parsers.ParseStr | ModelInterface/__init__.py:228-235 | the result is `None` exactly for `None`, and a string otherwise |
| Parsers.ParseStrKeepsStrings | ModelInterface/__init__.py:232 | a string is returned unchanged, and parsing a result again changes nothing |
| Parsers.ParseStrOfScalars | ModelInterface/__init__.py:232 | a boolean becomes `"True"` or `"False"`, and a negative integer becomes a minus sign followed by digits that read back as its magnitude |
| Parsers.ParseStrOfNatural | ModelInterface/__init__.py:232 | a non-negative integer becomes a string of decimal digits that reads back as the integer |
| Parsers.ParseList | ModelInterface/__init__.py:256-263 | the result is `None` exactly for a non-iterable value; otherwise a list of the same length whose element `i` is `str()` of the `i`-th iterated item |
| Parsers.ParseListOfTextAndRecords | ModelInterface/__init__.py:259-260 | a string becomes the list of its characters, a dictionary the list of its keys, and a list keeps its length |
| Parsers.ParseListIdempotent | ModelInterface/__init__.py:256-263 | parsing the result again gives the same result |
| PyText.StripEnds | ModelInterface/__init__.py:242 | a non-empty stripped text neither starts nor ends with whitespace |
| PyText.StripBlank | main.py:62 | stripping gives the empty text exactly when every character is whitespace |
| PyText.StripIdempotent | main.py:62 | stripping twice is stripping once |
| PyText.NaturalRoundTrip | ModelInterface/__init__.py:232 | the decimal digits printed for a non-negative integer read back as that integer |
| PyText.RemoveAllAbsent | main.py:82 | removing a text that does not occur leaves the string unchanged |
| PyText.RemoveAllShrinks | main.py:82 | removing a non-empty text that occurs makes the string strictly shorter |
| PyText.RemoveAllSelf | main.py:82 | removing a non-empty text from itself leaves the empty string |
| MainHelpers.FirstToken | main.py:30-33 | finds the first token, in dictionary order, that occurs in the text; no earlier token occurs |
| MainHelpers.FieldText | main.py:31 | the searched text exists exactly when the field can be looked up, and a failed lookup's error is the one raised |
| MainHelpers.FieldPickFindsFirstToken | main.py:30-33 | a field's pick is the canonical value of the first token, in dictionary order, occurring in its lower-cased text; there is no pick when no token occurs |
| MainHelpers.ScanFields | main.py:29-35 | a category without tokens looks up no field; a scan's value is the starting value or the canonical value of one of the category's tokens |
| MainHelpers.CategoryValue | main.py:29-37 | a category ends with `default` or with a truthy canonical value of one of its tokens |
| MainHelpersFacts.CategoryValueDefault | main.py:36-37 | when no field yields a truthy canonical value, the category takes `default` |
| MainHelpersFacts.CategoryValueFirstTruthy | main.py:29-35 | the category takes the first truthy pick, in model field order |
| MainHelpersFacts.CategoryValueAborts | main.py:31 | a field that cannot be looked up, met before any truthy pick, makes `metal` raise that lookup's error |
| MainHelpersFacts.CategoryValueWithoutTokens | main.py:30-37 | a category with no tokens takes `default` without looking up any field |
| MainHelpers.CategoryMembers | main.py:28-37 | one member per category, in dictionary order, each holding that category's value; a failure is the error of the first category whose value fails, every earlier category having succeeded |
| MainHelpers.MetalItem | main.py:26-39 | the instance for one item has exactly one key per category, in dictionary order, and looking a category up gives that category's value |
| MainHelpers.MetalEach | main.py:26-39 | one instance per item, in order, instance `i` being item `i`'s; a failure is the error of the first item whose instance fails, every earlier item having succeeded |
| MainHelpers.Metal | main.py:17-41 | a non-iterable value raises `TypeError`; the result is a list with one instance per iterated item, each keyed by exactly the categories; a failure is the error of the first item whose instance fails |
| MainHelpers.AsIs | main.py:45-48 | `as_is` returns its argument |
| MainHelpersFacts.AsIsIsNeutral | main.py:45-48 | `as_is` in a trigger list changes nothing, and as a model rule it copies the field (or gives `None` when the key is missing) |
| MainHelpers.KeptPieces | main.py:62 | the kept pieces are stripped and non-empty, and there are no more of them than parts |
| MainHelpersFacts.KeptPiecesOfFilledParts | main.py:62 | parts that contain text are all kept, stripped, in order |
| MainHelpersFacts.KeptPiecesOfBlankParts | main.py:62 | parts that are all blank keep nothing |
| MainHelpersFacts.KeptPiecesOfOnePart | main.py:62 | a single part is kept, stripped, exactly when it has text in it |
| MainHelpersFacts.KeptPiecesAppend | main.py:62 | parts are kept one by one: the pieces of `a + b` are the pieces of `a` followed by the pieces of `b` |
| MainHelpersFacts.KeptPiecesIdempotent | main.py:62 | keeping the kept pieces again changes nothing |
| MainHelpers.ElementPieces | main.py:62 | a missing key or a non-dictionary element raises the lookup's error, a non-string value raises `TypeError`, and otherwise the pieces are the kept splitter output |
| MainHelpers.SplitRecords | main.py:62-65 | one record per piece, in piece order, each with `key` set to its piece; when there is at least one piece and the element's parse fails, the split fails; with no pieces no parse runs |
| MainHelpers.ElementRecords | main.py:62-65 | every record emitted for an element has `key` holding a non-empty string |
| MainHelpers.SplitEach | main.py:61-65 | the split succeeds exactly when every element's records can be produced; a failure is the error of the first element whose records fail, every earlier element having succeeded; every record has `key` holding a non-empty string |
| MainHelpersFacts.SplitEachConcatenates | main.py:60-67 | the output is the records of the first element, then those of the second, and so on |
| MainHelpersFacts.BlankElementContributesNothing | main.py:62 | an element whose key splits only into blank pieces contributes no record |
| MainHelpersFacts.SplitFirstRecordIsParse | main.py:63-64 | the first record of an element is that element's parse with `key` overwritten by the piece |
| MainHelpersFacts.PieceParseIsParse | main.py:62-63 | the parse of an element's first piece is `model.parse(v)`; the parse of piece `j > 0` is that of piece `j - 1` of the element as the first parse's interface pass left it; a failing pass fails every piece's parse |
| MainHelpersFacts.SplitRecordsAt | main.py:61-65 | with an interface or without, record `j` of an element is the parse of piece `j` with `key` overwritten by piece `j`, and there is one record per piece |
| MainHelpersFacts.SplitRecordsFailsFirst | main.py:61-65 | an element's records fail exactly when the parse of one of its pieces fails, and then the error raised is that of the first failing piece, every earlier piece having parsed |
| MainHelpersFacts.ElementRecordsArePieceParses | main.py:61-65 | an element whose records can be produced gives one record per kept piece of `v[key]`, record `j` being the parse of piece `j` with `key` set to that piece |
| MainHelpersFacts.SplitWithoutInterface | main.py:62-65 | without an interface every piece gets the same parse, so the records differ only in `key`; a failing match fails the split |
| MainHelpers.Split | main.py:52-67 | a non-iterable value raises `TypeError`; the result is a list of records that each hold a non-empty string under `key`; it succeeds exactly when every element's records can be produced, and a failure is the error of the first element whose records fail |
| MainHelpers.MatchElement | main.py:79-85 | a missing `insertion` raises the lookup's error and a non-string one `TypeError`; a miss leaves the element unchanged; a hit stores the found text in `field`, removes every occurrence of it from `insertion`, and leaves every other key unchanged |
| MainHelpersFacts.MatchElementConsumesToken | main.py:81-82 | a found non-empty text makes `insertion` strictly shorter, or empties it when `field` is `insertion` itself |
| MainHelpers.MatchEach | main.py:78-85 | element `i` of the result is element `i` rewritten on its own, and the list keeps its length; the loop succeeds exactly when every element can be rewritten, and a failure is the error of the first element that cannot |
| MainHelpers.MatchTokens | main.py:71-87 | a non-iterable value raises `TypeError`; a list comes back with the same length and each element rewritten; an empty string or dictionary comes back unchanged, while a non-empty one raises `TypeError`, since its items are strings; a failure is the error of the first element that cannot be rewritten |
| MainHelpersFacts.MatchTokensMissLeavesValue | main.py:78-87 | when the search finds nothing in any element, the value comes back unchanged |

## Left out

- `parse_float` and `parse_int` (ModelInterface/__init__.py:206-224): floating-point conversion and truncation. A model may still use them as opaque `Simple` transforms.
- Regular expressions: `delimiter.split` and `token.search` in `main.py` are function parameters, not a regex engine. A splitter whose capture groups yield `None` pieces is not modelled.
- The `print(ex)` diagnostic at ModelInterface/__init__.py:139: a side effect only. The field's `None` is modelled.
- Duplicate table ids: an interface's tables are a sequence, and ids that are equal under Python `==` (such as `1` and `True`) are assumed distinct, as the keys of the Python dict they come from are. With such a pair the model's `setinterface` would also check the table the dict would have dropped.
- Runtime introspection in `setinterface` (`getattr`, `type(...) is dict`, `callable`) and the truth test `if interface:` in the constructor: each candidate carries three flags instead, so the model does not say which objects are false (the library's own `interface` class is always true).
- Python objects beyond JSON values: floats, tuples, sets and arbitrary objects are not values of the model.
- The `UnicodeEncodeError` branch of `parse_str`: `str()` of a JSON value cannot raise it.
- Module-level code of `main.py` (paths, JSON files, the concrete models and interfaces, `print`, `exit`): I/O and wiring.
- Concurrency on the interface's remembered `id`. Only its value after one `match` is modelled.
- The unreachable statements after `raise` (ModelInterface/__init__.py:104, 112, 189).
- Aliasing: `split` hands the same element object to the parse of each of its pieces, and each parse's interface pass rewrites that element in place. The model threads the rewritten element from one parse to the next. `blocklist` parses each element once, but that parse's interface pass also rewrites the caller's element in place. The model returns a new record instead, so the caller's list does not show the change.
- A failed interface pass leaves the fields it already rewrote changed in the caller's record. Here a raised error discards the record, so that partial mutation is not visible.
- PyText.Lower: `str.lower()` is modelled for ASCII, Latin-1 and basic Cyrillic letters only. Other scripts are left unchanged.
- PyText.Title: `str.title()` is modelled for ASCII letters only. That is enough for the `parse_bool` tokens, since every token `True`/`False`/`1`/`0` is ASCII.
- Values.Show: `repr()` escapes of non-printable characters outside Latin-1 are not modelled. The contract states only what the parsers need about the first character.
- Parsers.ParseBoolIgnoresCase: stated for words of ASCII letters of up to six characters, not for every input whose token spells `True` or `False`.
- MainHelpers.FieldPick: its contract states only when it fails. What it picks is stated by MainHelpers.FieldPickFindsFirstToken.
- ModelInterface.Match: the result is stated member by member only when the field names are distinct. A Python dict always has distinct keys, so this is every model the source can build.
- MainHelpers.MetalItem: category lookups are stated only for distinct category names, which a Python dict guarantees.

=== FILE: engine.dfy ===
/** The record-cleaning engine of `ModelInterface/__init__.py`: trigger pipelines, block
    lists, models with their two-phase `parse`, and source-specific interfaces.
    Mutation of the raw record in place is modelled by returning the updated record. */
module ModelInterface {
  import opened Values

  /** Keyword arguments handed to a configured transform. */
  type Params = map<string, Value>

  /** A field transform, in one of the shapes a model rule, a trigger list or an interface table holds. */
  datatype Step =
    | Simple(f: Value -> Outcome<Value>)                               // a bare callable, applied as f(v)
    | Configured(g: (Value, Params) -> Outcome<Value>, params: Params) // (g, kwargs), applied as g(v, **kwargs)
    | BlockList(sub: Model)                                           // (blocklist, {"model": sub})
    | Trigger(tlist: seq<Step>)                                       // (trigger, {"tlist": tlist})

  datatype ModelField = ModelField(name: string, rule: Step)

  /** `model`: field rules in declaration order and the bound interface, if any. */
  datatype Model = Model(fields: seq<ModelField>, iface: Option<Interface>)

  /** The transforms an interface table lists for one field, in order. */
  datatype FieldSteps = FieldSteps(field: string, steps: seq<Step>)

  /** The table registered under one selector value. */
  datatype Table = Table(id: Value, entries: seq<FieldSteps>)

  /** `interface`: the selector field name and the tables keyed by selector value. */
  datatype Interface = Interface(selector: string, tables: seq<Table>)

  /** An object offered to `setinterface`: the interface it carries, whether its `mapping`
      attribute is exactly a `dict`, whether its `match` attribute is callable, and whether
      the object itself is true in a boolean context (`bool(interface)`). */
  datatype Candidate = Candidate(mappingIsDict: bool, matchIsCallable: bool, truthy: bool, iface: Interface)

  /** The field names of a model, in declaration order. */
  function Names(fields: seq<ModelField>): (ns: seq<string>)
    ensures |ns| == |fields|
    ensures forall i :: 0 <= i < |fields| ==> ns[i] == fields[i].name
  {
    seq(|fields|, i requires 0 <= i < |fields| => fields[i].name)
  }

  function NameSet(fields: seq<ModelField>): set<string> {
    set i | 0 <= i < |fields| :: fields[i].name
  }

  /** The field names a table lists. */
  function EntryFields(entries: seq<FieldSteps>): set<string> {
    set i | 0 <= i < |entries| :: entries[i].field
  }

  /** Invokes one step on `v`: a bare callable as `t(v)`, a pair as `t[0](v, **t[1])`. */
  function Apply(s: Step, v: Value): Outcome<Value>
    decreases s, 0
  {
    match s
    case Simple(f) => f(v)
    case Configured(g, params) => g(v, params)
    case BlockList(sub) => RunBlockList(sub, v)
    case Trigger(tlist) => RunTrigger(tlist, v)
  }

  /** `trigger(value, tlist)`: each step receives the previous step's result. */
  function RunTrigger(tlist: seq<Step>, v: Value): Outcome<Value>
    decreases tlist, 0
  {
    if |tlist| == 0 then Ok(v)
    else
      var w :- Apply(tlist[0], v);
      RunTrigger(tlist[1..], w)
  }

  /** `blocklist(value, model)`: parses every element of `value` with the sub-model, in order. */
  function RunBlockList(sub: Model, v: Value): (r: Outcome<Value>)
    decreases sub, 5
    ensures Iterate(v).Raise? ==> r == Raise(TypeErr)
    ensures r.Ok? ==> r.value.List? && |r.value.items| == |Iterate(v).value|
    ensures v.List? ==> (r.Ok? <==> forall i :: 0 <= i < |v.items| ==> Parse(sub, v.items[i]).Ok?)
    ensures v.List? && r.Ok? ==> forall i :: 0 <= i < |v.items| ==> r.value.items[i] == Parse(sub, v.items[i]).value
  {
    var items :- Iterate(v);
    var parsed :- ParseEach(sub, items);
    Ok(List(parsed))
  }

  /** Parses a sequence of raw records, stopping at the first one whose parse raises. */
  function ParseEach(sub: Model, items: seq<Value>): (r: Outcome<seq<Value>>)
    decreases sub, 4, |items|
    ensures r.Ok? <==> forall i :: 0 <= i < |items| ==> Parse(sub, items[i]).Ok?
    ensures r.Ok? ==> |r.value| == |items|
    ensures r.Ok? ==> forall i :: 0 <= i < |items| ==> r.value[i] == Parse(sub, items[i]).value
    ensures r.Raise? ==> exists i :: 0 <= i < |items| && Parse(sub, items[i]) == Raise(r.error)
                                      && forall j :: 0 <= j < i ==> Parse(sub, items[j]).Ok?
  {
    if |items| == 0 then Ok([])
    else
      var first :- Parse(sub, items[0]);
      var rest :- ParseEach(sub, items[1..]);
      Ok([first] + rest)
  }

  /** `model.parse(value)`: the bound interface's pass, then `match` on the record it leaves. */
  function Parse(m: Model, v: Value): Outcome<Value>
    decreases m, 3
  {
    var w :- Prepare(m, v);
    Match(m, w)
  }

  /** The record `match` sees inside `parse`: the source after the interface's in-place pass,
      or the source itself when no interface is bound. */
  function Prepare(m: Model, v: Value): Outcome<Value>
    decreases m, 2
  {
    match m.iface
    case None => Ok(v)
    case Some(i) => InterfaceMatch(i, v)
  }

  /** The cleaned value of one field: look the field up, apply its rule, and turn a
      `KeyError` (or a subclass) or a `TypeError` into `None`. */
  function FieldValue(f: ModelField, v: Value): (r: Outcome<Value>)
    decreases f, 0
    ensures r.Raise? ==> !Absorbed(r.error)
    ensures GetItem(v, f.name).Raise? ==> r == Ok(Null)
    ensures GetItem(v, f.name).Ok? && Apply(f.rule, GetItem(v, f.name).value).Ok? ==>
              r == Apply(f.rule, GetItem(v, f.name).value)
    ensures GetItem(v, f.name).Ok? && Apply(f.rule, GetItem(v, f.name).value).Raise? ==>
              r == (if Absorbed(Apply(f.rule, GetItem(v, f.name).value).error) then Ok(Null)
                    else Apply(f.rule, GetItem(v, f.name).value))
  {
    var cell := GetItem(v, f.name);
    var out := if cell.Ok? then Apply(f.rule, cell.value) else Raise(cell.error);
    if out.Raise? && Absorbed(out.error) then Ok(Null) else out
  }

  /** The members a successful `match` produces: one per model field, in model order. */
  function Cleaned(fields: seq<ModelField>, v: Value): (ms: seq<Member>)
    decreases fields, 1
    ensures |ms| == |fields|
  {
    seq(|fields|, i requires 0 <= i < |fields| => Member(fields[i].name, FieldValue(fields[i], v).GetOr(Null)))
  }

  /** No field's cleaned value raises. */
  predicate AllFieldsOk(fields: seq<ModelField>, v: Value)
    decreases fields, 1
  {
    forall i :: 0 <= i < |fields| ==> FieldValue(fields[i], v).Ok?
  }

  /** Field `i` is the first whose cleaned value raises, and it raises `e`. */
  predicate FirstFailure(fields: seq<ModelField>, v: Value, i: int, e: Error)
    decreases fields, 1
  {
    && 0 <= i < |fields|
    && FieldValue(fields[i], v) == Raise(e)
    && forall j :: 0 <= j < i ==> FieldValue(fields[j], v).Ok?
  }

  /** The loop of `model.match`, assigning each field's cleaned value into `data`. */
  function MatchFields(fields: seq<ModelField>, v: Value, data: seq<Member>): (r: Outcome<seq<Member>>)
    decreases fields, 2
    ensures r.Ok? <==> AllFieldsOk(fields, v)
    ensures r.Raise? ==> exists i :: FirstFailure(fields, v, i, r.error)
  {
    if |fields| == 0 then Ok(data)
    else
      var head := FieldValue(fields[0], v);
      if head.Raise? then
        assert FirstFailure(fields, v, 0, head.error);
        Raise(head.error)
      else
      var r := MatchFields(fields[1..], v, SetMember(data, fields[0].name, head.value));
      assert forall j :: 0 <= j < |fields| - 1 ==> fields[1..][j] == fields[j + 1];
      if r.Raise? then
        var i :| FirstFailure(fields[1..], v, i, r.error);
        assert FirstFailure(fields, v, i + 1, r.error);
        r
      else
        r
  }

  /** With distinct field names, the loop appends one member per field to `data`, in order. */
  lemma {:induction false} MatchFieldsAppends(fields: seq<ModelField>, v: Value, data: seq<Member>)
    requires MatchFields(fields, v, data).Ok?
    requires Distinct(Names(fields))
    requires forall i :: 0 <= i < |fields| ==> fields[i].name !in Keys(data)
    ensures MatchFields(fields, v, data).value == data + Cleaned(fields, v)
    decreases fields, 3
  {
    if |fields| == 0 {
      assert Cleaned(fields, v) == [];
    } else {
      var x := FieldValue(fields[0], v).value;
      var data' := data + [Member(fields[0].name, x)];
      AppendStep(fields, data, x);
      MatchFieldsAppends(fields[1..], v, data');
      CleanedCons(fields, v);
      assert data' + Cleaned(fields[1..], v) == data + Cleaned(fields, v);
    }
  }

  /** Assigning the first of several distinct fresh names appends it, and leaves the other
      names fresh. */
  lemma AppendStep(fields: seq<ModelField>, data: seq<Member>, x: Value)
    requires |fields| > 0 && Distinct(Names(fields))
    requires forall i :: 0 <= i < |fields| ==> fields[i].name !in Keys(data)
    ensures SetMember(data, fields[0].name, x) == data + [Member(fields[0].name, x)]
    ensures Distinct(Names(fields[1..]))
    ensures forall i :: 0 <= i < |fields| - 1 ==> fields[1..][i].name !in Keys(data + [Member(fields[0].name, x)])
  {
    var data' := data + [Member(fields[0].name, x)];
    SetMemberKeys(data, fields[0].name, x);
    assert Keys(data') == Keys(data) + [fields[0].name];
    assert Names(fields[1..]) == Names(fields)[1..];
    forall i | 0 <= i < |fields| - 1
      ensures fields[1..][i].name !in Keys(data')
    {
      assert Names(fields)[0] != Names(fields)[i + 1];
    }
  }

  lemma CleanedCons(fields: seq<ModelField>, v: Value)
    requires |fields| > 0
    ensures Cleaned(fields, v) == [Member(fields[0].name, FieldValue(fields[0], v).GetOr(Null))] + Cleaned(fields[1..], v)
    decreases fields, 2
  {
    var c := Cleaned(fields, v);
    var c' := [Member(fields[0].name, FieldValue(fields[0], v).GetOr(Null))] + Cleaned(fields[1..], v);
    forall i | 0 <= i < |c|
      ensures c[i] == c'[i]
    {
      if i > 0 {
        assert fields[1..][i - 1] == fields[i];
      }
    }
  }

  /** `model.match(value)`: a fresh record holding exactly the model's fields, in model
      order; a field whose lookup or rule raises `KeyError` or `TypeError` becomes `None`,
      and any other error aborts the whole match. */
  function Match(m: Model, v: Value): (r: Outcome<Value>)
    decreases m, 2
    ensures r.Ok? <==> AllFieldsOk(m.fields, v)
    ensures r.Raise? ==> !Absorbed(r.error)
    ensures r.Raise? ==> exists i :: FirstFailure(m.fields, v, i, r.error)
    ensures r.Ok? ==> r.value.Record?
    ensures r.Ok? && Distinct(Names(m.fields)) ==> r.value.members == Cleaned(m.fields, v)
  {
    var data :- MatchFields(m.fields, v, []);
    if Distinct(Names(m.fields)) then
      MatchFieldsAppends(m.fields, v, []);
      Ok(Record(data))
    else
      Ok(Record(data))
  }

  /** The position of the table registered under `id` (by Python `==`), or `|tables|`. */
  function FindTable(tables: seq<Table>, id: Value): (t: nat)
    ensures t <= |tables|
    ensures t < |tables| ==> KeyEq(tables[t].id, id)
    ensures forall j :: 0 <= j < t ==> !KeyEq(tables[j].id, id)
  {
    if |tables| == 0 then 0
    else if KeyEq(tables[0].id, id) then 0
    else 1 + FindTable(tables[1..], id)
  }

  /** `interface.match(source)`: select the table by the selector field's value and run it. */
  function InterfaceMatch(i: Interface, source: Value): (r: Outcome<Value>)
    decreases i, 0
    ensures !source.Record? ==> r == Raise(TypeErr)
    ensures source.Record? && i.selector !in Keys(source.members) ==> r == Raise(InterfaceErr(i.selector))
    ensures GetItem(source, i.selector).Ok? && !Hashable(GetItem(source, i.selector).value) ==> r == Raise(TypeErr)
    ensures GetItem(source, i.selector).Ok? && Hashable(GetItem(source, i.selector).value)
            && FindTable(i.tables, GetItem(source, i.selector).value) == |i.tables|
            ==> r == Raise(NotFound(GetItem(source, i.selector).value))
    ensures r.Ok? ==> GetItem(source, i.selector).Ok? && Hashable(GetItem(source, i.selector).value)
    ensures r.Ok? ==> r.value.Record? && Keys(r.value.members) == Keys(source.members)
  {
    var sel := GetItem(source, i.selector);
    if sel.Raise? then
      if sel.error == KeyErr then Raise(InterfaceErr(i.selector)) else Raise(sel.error)
    else if !Hashable(sel.value) then Raise(TypeErr)
    else
      var t := FindTable(i.tables, sel.value);
      if t == |i.tables| then Raise(NotFound(sel.value))
      else RunTable(i.tables[t].entries, source)
  }

  /** The loop over the selected table's fields, in table order. */
  function RunTable(entries: seq<FieldSteps>, source: Value): (r: Outcome<Value>)
    requires source.Record?
    decreases entries, 0
    ensures r.Ok? ==> r.value.Record? && Keys(r.value.members) == Keys(source.members)
    ensures r.Ok? ==> forall k :: k !in EntryFields(entries) ==> GetItem(r.value, k) == GetItem(source, k)
  {
    if |entries| == 0 then Ok(source)
    else
      var s1 :- RunFieldSteps(entries[0].field, entries[0].steps, source);
      var r := RunTable(entries[1..], s1);
      assert forall k :: k !in EntryFields(entries) ==> k != entries[0].field && k !in EntryFields(entries[1..]);
      r
  }

  /** `source[k] = f[0](source[k], **f[1])` for each listed step: a bare callable is not
      subscriptable, so it raises `TypeError` before the field is even read. */
  function RunFieldSteps(k: string, steps: seq<Step>, source: Value): (r: Outcome<Value>)
    requires source.Record?
    decreases steps, 0
    ensures r.Ok? ==> r.value.Record? && Keys(r.value.members) == Keys(source.members)
    ensures r.Ok? ==> forall k' :: k' != k ==> GetItem(r.value, k') == GetItem(source, k')
  {
    if |steps| == 0 then Ok(source)
    else if steps[0].Simple? then Raise(TypeErr)
    else
      var x :- GetItem(source, k);
      var y :- Apply(steps[0], x);
      RunFieldSteps(k, steps[1..], SetItem(source, k, y))
  }

  /** The interface's remembered `id` after `match(source)`: the selector value whenever its
      lookup succeeds, even if no table is registered for it; otherwise the previous `id`. */
  function IdAfterMatch(i: Interface, prev: Value, source: Value): (id: Value)
    ensures GetItem(source, i.selector).Ok? ==> id == GetItem(source, i.selector).value
    ensures GetItem(source, i.selector).Raise? ==> id == prev
    ensures InterfaceMatch(i, source).Ok? ==> Hashable(id) && FindTable(i.tables, id) < |i.tables|
  {
    var sel := GetItem(source, i.selector);
    if sel.Ok? then sel.value else prev
  }

  predicate Capable(c: Candidate) {
    c.mappingIsDict && c.matchIsCallable
  }

  /** The position of the first table that lists a field outside `names`, or `|tables|`. */
  function FirstMisfit(tables: seq<Table>, names: set<string>): (t: nat)
    ensures t <= |tables|
    ensures t < |tables| ==> !(EntryFields(tables[t].entries) <= names)
    ensures forall j :: 0 <= j < t ==> EntryFields(tables[j].entries) <= names
  {
    if |tables| == 0 then 0
    else if !(EntryFields(tables[0].entries) <= names) then 0
    else 1 + FirstMisfit(tables[1..], names)
  }

  /** `model.setinterface(interface)`: the capability check, then the subset check of every
      table against the model's fields; the interface is bound only when both pass. */
  function SetInterface(m: Model, c: Candidate): (r: Outcome<Model>)
    ensures r.Raise? && r.error == AttrErr <==> !Capable(c)
    ensures Capable(c) ==> (r.Raise? <==> exists t :: 0 <= t < |c.iface.tables| && !(EntryFields(c.iface.tables[t].entries) <= NameSet(m.fields)))
    ensures r.Raise? && Capable(c) ==>
              (exists t :: 0 <= t < |c.iface.tables|
                 && (forall j :: 0 <= j < t ==> EntryFields(c.iface.tables[j].entries) <= NameSet(m.fields))
                 && r.error == BadInterface(c.iface.tables[t].id, EntryFields(c.iface.tables[t].entries) - NameSet(m.fields)))
    ensures r.Ok? ==> r.value.fields == m.fields && r.value.iface == Some(c.iface)
  {
    if !Capable(c) then Raise(AttrErr)
    else
      var names := NameSet(m.fields);
      var t := FirstMisfit(c.iface.tables, names);
      if t < |c.iface.tables| then
        Raise(BadInterface(c.iface.tables[t].id, EntryFields(c.iface.tables[t].entries) - names))
      else
        Ok(m.(iface := Some(c.iface)))
  }

  /** `model(fields, interface)`: the interface is bound only when one is given and it is
      true in a boolean context, and then it must pass `setinterface`. A false object such
      as `{}` is skipped without any check, so the model starts without an interface. */
  function NewModel(fields: seq<ModelField>, c: Option<Candidate>): (r: Outcome<Model>)
    ensures (c.None? || !c.value.truthy) ==> r == Ok(Model(fields, None))
    ensures c.Some? && c.value.truthy ==> r == SetInterface(Model(fields, None), c.value)
    ensures r.Ok? ==> r.value.fields == fields
    ensures r.Ok? && r.value.iface.Some? <==>
              c.Some? && c.value.truthy && Capable(c.value)
              && FirstMisfit(c.value.iface.tables, NameSet(fields)) == |c.value.iface.tables|
    ensures r.Ok? && r.value.iface.Some? ==> r.value.iface == Some(c.value.iface)
    ensures r.Raise? ==> c.Some? && c.value.truthy
  {
    var m := Model(fields, None);
    if c.Some? && c.value.truthy then SetInterface(m, c.value) else Ok(m)
  }
}

=== FILE: engine_facts.dfy ===
/** Properties of the engine in `ModelInterface/__init__.py` that relate several calls:
    the trigger fold, the shape of `match`'s output, the order of `parse`'s phases, the
    field-wise effect of an interface table, and the state left by `setinterface`. */
module ModelInterfaceFacts {
  import opened Values
  import opened ModelInterface

  /** Continues a trigger pipeline from an outcome: a raised error skips the remaining steps. */
  function Then(o: Outcome<Value>, rest: seq<Step>): Outcome<Value> {
    match o
    case Ok(w) => RunTrigger(rest, w)
    case Raise(e) => Raise(e)
  }

  /** Running `a + b` is running `a`, then `b` on its result: the pipeline is a left fold. */
  lemma {:induction false} TriggerAppend(a: seq<Step>, b: seq<Step>, v: Value)
    ensures RunTrigger(a + b, v) == Then(RunTrigger(a, v), b)
    decreases |a|
  {
    if |a| == 0 {
      assert a + b == b;
    } else {
      assert (a + b)[1..] == a[1..] + b;
      match Apply(a[0], v)
      case Raise(e) =>
      case Ok(w) =>
        TriggerAppend(a[1..], b, w);
    }
  }

  /** The fold written from the last step backwards: an independent statement of `trigger`. */
  ghost function FoldBack(tlist: seq<Step>, v: Value): Outcome<Value>
    decreases |tlist|
  {
    if |tlist| == 0 then Ok(v)
    else
      var w :- FoldBack(tlist[..|tlist| - 1], v);
      Apply(tlist[|tlist| - 1], w)
  }

  /** An empty pipeline returns the value; otherwise the last step receives the result of all
      the steps before it; a bare callable is applied as `t(v)` and a pair as `t[0](v, **t[1])`. */
  lemma {:induction false} TriggerIsLeftFold(tlist: seq<Step>, v: Value)
    ensures RunTrigger(tlist, v) == FoldBack(tlist, v)
    ensures |tlist| == 0 ==> RunTrigger(tlist, v) == Ok(v)
    ensures forall f :: RunTrigger([Simple(f)], v) == f(v)
    ensures forall g, p :: RunTrigger([Configured(g, p)], v) == g(v, p)
    decreases |tlist|
  {
    if |tlist| > 0 {
      var n := |tlist| - 1;
      TriggerIsLeftFold(tlist[..n], v);
      assert tlist == tlist[..n] + [tlist[n]];
      TriggerAppend(tlist[..n], [tlist[n]], v);
      match RunTrigger(tlist[..n], v)
      case Raise(e) =>
      case Ok(w) =>
        assert RunTrigger([tlist[n]], w) == Apply(tlist[n], w) by {
          match Apply(tlist[n], w)
          case Raise(e) =>
          case Ok(u) => assert RunTrigger([tlist[n]][1..], u) == Ok(u);
        }
    }
  }

  /** With distinct field names, the output of `match` has exactly the model's keys, in model
      order, whatever keys the source has. */
  lemma MatchKeysAreModelKeys(m: Model, v: Value)
    requires Distinct(Names(m.fields))
    requires Match(m, v).Ok?
    ensures Keys(Match(m, v).value.members) == Names(m.fields)
  {
  }

  /** A field whose source key is absent, or whose source is not a dictionary, becomes `None`
      and its siblings are computed as if it were present. */
  lemma MatchMissingKeyIsNull(m: Model, v: Value, i: nat)
    requires Distinct(Names(m.fields))
    requires i < |m.fields|
    requires GetItem(v, m.fields[i].name).Raise?
    ensures FieldValue(m.fields[i], v) == Ok(Null)
    ensures Match(m, v).Ok? ==> Match(m, v).value.members[i] == Member(m.fields[i].name, Null)
  {
  }

  /** `match` on something that is not a dictionary cannot fail: every field becomes `None`. */
  lemma MatchOfNonRecord(m: Model, v: Value)
    requires !v.Record?
    ensures Match(m, v).Ok?
    ensures Distinct(Names(m.fields)) ==>
              Match(m, v).value.members == seq(|m.fields|, i requires 0 <= i < |m.fields| => Member(m.fields[i].name, Null))
  {
    assert forall i :: 0 <= i < |m.fields| ==> FieldValue(m.fields[i], v) == Ok(Null);
  }

  /** In a successful `match`, field `i` holds its rule's result on the source value; a
      missing key, or a rule raising a `KeyError` (or subclass) or a `TypeError`, gives `None`. */
  lemma MatchFieldIsRuleResult(m: Model, v: Value, i: nat)
    requires Distinct(Names(m.fields)) && i < |m.fields|
    requires Match(m, v).Ok?
    ensures var f := m.fields[i];
            var cell := GetItem(v, f.name);
            Match(m, v).value.members[i] ==
              Member(f.name, if cell.Raise? then Null
                             else if Apply(f.rule, cell.value).Ok? then Apply(f.rule, cell.value).value
                             else Null)
  {
    var f := m.fields[i];
    assert FieldValue(f, v).Ok?;
  }

  /** A rule that raises anything other than a `KeyError` (or subclass) or a `TypeError`, in
      the first field that raises at all, makes the whole `match` raise that error. */
  lemma MatchRaisesRuleError(m: Model, v: Value, i: nat)
    requires i < |m.fields|
    requires forall j :: 0 <= j < i ==> FieldValue(m.fields[j], v).Ok?
    requires GetItem(v, m.fields[i].name).Ok?
    requires var a := Apply(m.fields[i].rule, GetItem(v, m.fields[i].name).value);
             a.Raise? && !Absorbed(a.error)
    ensures Match(m, v) == Raise(Apply(m.fields[i].rule, GetItem(v, m.fields[i].name).value).error)
  {
    var e := Apply(m.fields[i].rule, GetItem(v, m.fields[i].name).value).error;
    assert FirstFailure(m.fields, v, i, e);
    var r := Match(m, v);
    assert r.Raise?;
    var k :| FirstFailure(m.fields, v, k, r.error);
    assert k == i;
  }

  lemma {:induction false} MatchFieldsCongruent(fields: seq<ModelField>, v: Value, w: Value, data: seq<Member>)
    requires forall i :: 0 <= i < |fields| ==> GetItem(v, fields[i].name) == GetItem(w, fields[i].name)
    ensures MatchFields(fields, v, data) == MatchFields(fields, w, data)
    decreases |fields|
  {
    if |fields| > 0 {
      assert FieldValue(fields[0], v) == FieldValue(fields[0], w);
      match FieldValue(fields[0], v)
      case Raise(e) =>
      case Ok(x) =>
        MatchFieldsCongruent(fields[1..], v, w, SetMember(data, fields[0].name, x));
    }
  }

  /** `match` reads the source only at the model's keys: keys outside the model are dropped
      and cannot influence the result. */
  lemma MatchIgnoresOtherKeys(m: Model, v: Value, w: Value)
    requires forall i :: 0 <= i < |m.fields| ==> GetItem(v, m.fields[i].name) == GetItem(w, m.fields[i].name)
    ensures Match(m, v) == Match(m, w)
  {
    MatchFieldsCongruent(m.fields, v, w, []);
  }

  /** Without a bound interface `parse` is `match`; with one, the interface's failures surface
      before any field is cleaned, and a successful parse matches the record the interface left.
      This states only the order of the two phases; what the interface pass does to the record
      is `InterfaceMatchAppliesTable`. */
  lemma ParsePhases(m: Model, v: Value)
    ensures m.iface.None? ==> Parse(m, v) == Match(m, v)
    ensures m.iface.Some? && InterfaceMatch(m.iface.value, v).Raise? ==>
              Parse(m, v) == Raise(InterfaceMatch(m.iface.value, v).error)
    ensures m.iface.Some? && InterfaceMatch(m.iface.value, v).Ok? ==>
              Parse(m, v) == Match(m, InterfaceMatch(m.iface.value, v).value)
  {
  }

  /** The interface errors `parse` lets through: a missing selector key, and a selector value
      with no registered table. That both are `KeyError`s, and so are absorbed one level up,
      is stated by `NestedInterfaceFailureIsAbsorbed`. */
  lemma ParseInterfaceErrors(m: Model, v: Value)
    requires m.iface.Some? && v.Record?
    ensures m.iface.value.selector !in Keys(v.members) ==>
              Parse(m, v) == Raise(InterfaceErr(m.iface.value.selector))
    ensures var sel := GetItem(v, m.iface.value.selector);
            sel.Ok? && Hashable(sel.value) && FindTable(m.iface.value.tables, sel.value) == |m.iface.value.tables| ==>
              Parse(m, v) == Raise(NotFound(sel.value))
  {
  }

  /** The first failing element decides the error a block list raises. */
  lemma ParseEachFirstError(sub: Model, items: seq<Value>, k: nat)
    requires k < |items| && Parse(sub, items[k]).Raise?
    requires forall j :: 0 <= j < k ==> Parse(sub, items[j]).Ok?
    ensures ParseEach(sub, items) == Raise(Parse(sub, items[k]).error)
  {
    var r := ParseEach(sub, items);
    assert r.Raise?;
    var i :| 0 <= i < |items| && Parse(sub, items[i]) == Raise(r.error)
             && forall j :: 0 <= j < i ==> Parse(sub, items[j]).Ok?;
    assert i == k;
  }

  /** A sub-model's interface failure inside a block list is a `KeyError`, so the enclosing
      `match` nulls the block-list field instead of failing the record. */
  lemma NestedInterfaceFailureIsAbsorbed(name: string, sub: Model, v: Value, items: seq<Value>, k: nat)
    requires GetItem(v, name) == Ok(List(items))
    requires sub.iface.Some?
    requires k < |items| && items[k].Record? && sub.iface.value.selector !in Keys(items[k].members)
    requires forall j :: 0 <= j < k ==> Parse(sub, items[j]).Ok?
    ensures RunBlockList(sub, List(items)) == Raise(InterfaceErr(sub.iface.value.selector))
    ensures FieldValue(ModelField(name, BlockList(sub)), v) == Ok(Null)
  {
    ParseEachFirstError(sub, items, k);
  }

  /** `f[0](v, **f[1])` for a step listed in an interface table. */
  function ApplyPair(s: Step, v: Value): Outcome<Value> {
    if s.Simple? then Raise(TypeErr) else Apply(s, v)
  }

  /** The steps an interface table lists for one field, folded over that field's value. */
  function RunPairs(steps: seq<Step>, v: Value): Outcome<Value> {
    if |steps| == 0 then Ok(v)
    else
      var w :- ApplyPair(steps[0], v);
      RunPairs(steps[1..], w)
  }

  /** One assignment of the folded value, as opposed to one assignment per step. */
  function FieldUpdate(k: string, steps: seq<Step>, source: Value): Outcome<Value>
    requires source.Record?
  {
    if |steps| == 0 then Ok(source)
    else if steps[0].Simple? then Raise(TypeErr)
    else
      var x :- GetItem(source, k);
      var y :- RunPairs(steps, x);
      Ok(SetItem(source, k, y))
  }

  /** Rewriting `source[k]` once per step is the same as assigning the fold of the steps once. */
  lemma {:induction false} FieldStepsAreOneUpdate(k: string, steps: seq<Step>, source: Value)
    requires source.Record?
    ensures RunFieldSteps(k, steps, source) == FieldUpdate(k, steps, source)
    decreases |steps|
  {
    if |steps| > 0 && !steps[0].Simple? {
      match GetItem(source, k)
      case Raise(e) =>
      case Ok(x) =>
        match Apply(steps[0], x)
        case Raise(e) =>
        case Ok(y1) =>
          var s1 := SetItem(source, k, y1);
          FieldStepsAreOneUpdate(k, steps[1..], s1);
          assert RunPairs(steps, x) == RunPairs(steps[1..], y1);
          if |steps[1..]| == 0 {
            assert RunPairs(steps[1..], y1) == Ok(y1);
          } else if steps[1].Simple? {
            assert RunPairs(steps[1..], y1) == Raise(TypeErr);
          } else {
            match RunPairs(steps[1..], y1)
            case Raise(e) =>
            case Ok(y) =>
              SetItemTwice(source, k, y1, y);
          }
    }
  }

  /** The value a listed field ends with: the table's steps for it folded over its old value. */
  function FinalCell(e: FieldSteps, source: Value): Outcome<Value> {
    if |e.steps| == 0 then GetItem(source, e.field)
    else
      var x :- GetItem(source, e.field);
      RunPairs(e.steps, x)
  }

  function FieldList(entries: seq<FieldSteps>): (fs: seq<string>)
    ensures |fs| == |entries|
    ensures forall j :: 0 <= j < |entries| ==> fs[j] == entries[j].field
  {
    seq(|entries|, j requires 0 <= j < |entries| => entries[j].field)
  }

  /** With distinct fields in the table, each listed field ends with its own fold. */
  lemma {:induction false} RunTableFieldwise(entries: seq<FieldSteps>, source: Value)
    requires source.Record?
    requires Distinct(FieldList(entries))
    requires RunTable(entries, source).Ok?
    ensures forall j :: 0 <= j < |entries| ==>
              GetItem(RunTable(entries, source).value, entries[j].field) == FinalCell(entries[j], source)
    decreases |entries|
  {
    if |entries| > 0 {
      var e := entries[0];
      FieldStepsAreOneUpdate(e.field, e.steps, source);
      var s1 := RunFieldSteps(e.field, e.steps, source).value;
      var r := RunTable(entries, source).value;
      assert RunTable(entries[1..], s1).value == r;
      assert FieldList(entries[1..]) == FieldList(entries)[1..];
      RunTableFieldwise(entries[1..], s1);
      forall j | 0 <= j < |entries[1..]|
        ensures entries[1..][j].field != e.field
      {
        assert FieldList(entries)[0] != FieldList(entries)[j + 1];
      }
      assert e.field !in EntryFields(entries[1..]);
      assert GetItem(r, e.field) == FinalCell(e, source);
      forall j | 1 <= j < |entries|
        ensures GetItem(r, entries[j].field) == FinalCell(entries[j], source)
      {
        assert entries[j] == entries[1..][j - 1];
        assert FieldList(entries)[0] != FieldList(entries)[j];
        assert GetItem(s1, entries[j].field) == GetItem(source, entries[j].field);
      }
    }
  }

  /** A successful `interface.match` runs the table registered under the selector value:
      every field it lists ends with the fold of its steps, every other key keeps its value,
      and the record keeps its keys in their order. */
  lemma InterfaceMatchAppliesTable(i: Interface, source: Value)
    requires InterfaceMatch(i, source).Ok?
    ensures source.Record?
    ensures var t := FindTable(i.tables, GetItem(source, i.selector).value);
            t < |i.tables|
            && (forall k :: k !in EntryFields(i.tables[t].entries) ==>
                  GetItem(InterfaceMatch(i, source).value, k) == GetItem(source, k))
            && (Distinct(FieldList(i.tables[t].entries)) ==>
                  forall j :: 0 <= j < |i.tables[t].entries| ==>
                    GetItem(InterfaceMatch(i, source).value, i.tables[t].entries[j].field)
                      == FinalCell(i.tables[t].entries[j], source))
  {
    var t := FindTable(i.tables, GetItem(source, i.selector).value);
    if Distinct(FieldList(i.tables[t].entries)) {
      RunTableFieldwise(i.tables[t].entries, source);
    }
  }

  /** A table with no fields leaves the record exactly as it was. */
  lemma EmptyTableLeavesSource(i: Interface, source: Value)
    requires GetItem(source, i.selector).Ok? && Hashable(GetItem(source, i.selector).value)
    requires FindTable(i.tables, GetItem(source, i.selector).value) < |i.tables|
    requires i.tables[FindTable(i.tables, GetItem(source, i.selector).value)].entries == []
    ensures InterfaceMatch(i, source) == Ok(source)
  {
  }

  /** Whether `setinterface` accepts a candidate depends only on the model's fields, not on
      any interface bound before; rebinding an accepted candidate changes nothing. */
  lemma SetInterfaceDependsOnFields(m: Model, c: Candidate, prior: Option<Interface>)
    ensures SetInterface(m, c).Ok? == SetInterface(m.(iface := prior), c).Ok?
    ensures SetInterface(m, c).Ok? ==> SetInterface(SetInterface(m, c).value, c) == SetInterface(m, c)
  {
  }

  /** The model after a series of `setinterface` calls whose failures the caller catches:
      a failed call leaves the model as it was. */
  function BindAll(m: Model, cs: seq<Candidate>): Model
    decreases |cs|
  {
    if |cs| == 0 then m
    else
      var r := SetInterface(m, cs[0]);
      BindAll(if r.Ok? then r.value else m, cs[1..])
  }

  predicate Accepts(fields: seq<ModelField>, c: Candidate) {
    SetInterface(Model(fields, None), c).Ok?
  }

  /** The last accepted candidate is the one bound; with none accepted the model keeps
      the interface it had; the fields never change. */
  lemma {:induction false} LastAcceptedBindWins(m: Model, cs: seq<Candidate>)
    ensures BindAll(m, cs).fields == m.fields
    ensures (forall j :: 0 <= j < |cs| ==> !Accepts(m.fields, cs[j])) ==> BindAll(m, cs).iface == m.iface
    ensures forall j :: 0 <= j < |cs| && Accepts(m.fields, cs[j]) && (forall l :: j < l < |cs| ==> !Accepts(m.fields, cs[l]))
              ==> BindAll(m, cs).iface == Some(cs[j].iface)
    decreases |cs|
  {
    if |cs| > 0 {
      SetInterfaceDependsOnFields(Model(m.fields, None), cs[0], m.iface);
      assert Model(m.fields, None).(iface := m.iface) == m;
      var r := SetInterface(m, cs[0]);
      var m1 := if r.Ok? then r.value else m;
      LastAcceptedBindWins(m1, cs[1..]);
      forall j | 1 <= j < |cs| && Accepts(m.fields, cs[j]) && (forall l :: j < l < |cs| ==> !Accepts(m.fields, cs[l]))
        ensures BindAll(m, cs).iface == Some(cs[j].iface)
      {
        assert cs[j] == cs[1..][j - 1];
        assert forall l :: j - 1 < l < |cs[1..]| ==> cs[1..][l] == cs[l + 1];
      }
    }
  }
}

=== FILE: helpers.dfy ===
/** The field transforms `metal`, `as_is`, `split` and `match` of `main.py`. The regular
    expressions they take are parameters: a splitter from a string to its pieces and a
    searcher from a string to the text of its first match, if any. */
module MainHelpers {
  import opened PyText
  import opened Values
  import opened ModelInterface

  /** One entry of a word-token dictionary: a token and the canonical value it stands for. */
  datatype TokenEntry = TokenEntry(token: string, canonical: Value)

  /** One category of the dictionary handed to `metal`: its name and its tokens, in order. */
  datatype Category = Category(name: string, tokens: seq<TokenEntry>)

  function CategoryNames(cats: seq<Category>): (ns: seq<string>)
    ensures |ns| == |cats|
    ensures forall i :: 0 <= i < |cats| ==> ns[i] == cats[i].name
  {
    seq(|cats|, i requires 0 <= i < |cats| => cats[i].name)
  }

  /** The position of the first token occurring in `text`, or `|tokens|`. */
  function FirstToken(text: string, tokens: seq<TokenEntry>): (j: nat)
    ensures j <= |tokens|
    ensures j < |tokens| ==> Contains(text, tokens[j].token)
    ensures forall l :: 0 <= l < j ==> !Contains(text, tokens[l].token)
  {
    if |tokens| == 0 then 0
    else if Contains(text, tokens[0].token) then 0
    else 1 + FirstToken(text, tokens[1..])
  }

  /** The text `metal` searches for tokens in one field: `str(item[name]).lower()`. */
  function FieldText(item: Value, name: string): (r: Outcome<string>)
    ensures r.Ok? <==> GetItem(item, name).Ok?
    ensures r.Raise? ==> r.error == GetItem(item, name).error
  {
    var cell :- GetItem(item, name);
    Ok(Lower(Show(cell)))
  }

  /** What one field contributes to a category: the canonical value of its first token, if any. */
  function FieldPick(item: Value, name: string, tokens: seq<TokenEntry>): (r: Outcome<Option<Value>>)
    requires |tokens| > 0
    ensures r.Ok? <==> FieldText(item, name).Ok?
    ensures r.Raise? ==> r.error == FieldText(item, name).error
  {
    var text :- FieldText(item, name);
    var j := FirstToken(text, tokens);
    Ok(if j < |tokens| then Some(tokens[j].canonical) else None)
  }

  /** A pick is the canonical value of the first token, in dictionary order, that occurs in
      the field's text; there is none when no token occurs. */
  lemma FieldPickFindsFirstToken(item: Value, name: string, tokens: seq<TokenEntry>)
    requires |tokens| > 0 && FieldText(item, name).Ok?
    ensures var text := FieldText(item, name).value;
            var r := FieldPick(item, name, tokens).value;
            && (r.Some? ==> exists j :: 0 <= j < |tokens| && Contains(text, tokens[j].token) && r.value == tokens[j].canonical
                                       && forall l :: 0 <= l < j ==> !Contains(text, tokens[l].token))
            && (r.None? ==> forall j :: 0 <= j < |tokens| ==> !Contains(text, tokens[j].token))
  {
  }

  /** The loop over the model's fields for one category: `cur` is what the category holds so
      far; the loop stops at the first field leaving a truthy value there. With no tokens the
      inner loop never runs, so no field is even looked up. */
  function ScanFields(item: Value, names: seq<string>, tokens: seq<TokenEntry>, cur: Value): (r: Outcome<Value>)
    decreases |names|
    ensures |tokens| == 0 ==> r == Ok(cur)
    ensures r.Ok? ==> r.value == cur || exists j :: 0 <= j < |tokens| && r.value == tokens[j].canonical
  {
    if |names| == 0 || |tokens| == 0 then Ok(cur)
    else
      var pick :- FieldPick(item, names[0], tokens);
      var next := if pick.Some? then pick.value else cur;
      if Truthy(next) then Ok(next) else ScanFields(item, names[1..], tokens, next)
  }

  /** The value `metal` stores for one category: the truthy pick if there is one, else `default`. */
  function CategoryValue(item: Value, names: seq<string>, cat: Category, default: Value): (r: Outcome<Value>)
    ensures r.Ok? ==> r.value == default || (Truthy(r.value) && exists j :: 0 <= j < |cat.tokens| && r.value == cat.tokens[j].canonical)
  {
    var found :- ScanFields(item, names, cat.tokens, Null);
    Ok(if Truthy(found) then found else default)
  }

  /** Category `i` is the first, in dictionary order, whose value cannot be computed; it raises `e`. */
  predicate CategoryFailsFirst(item: Value, names: seq<string>, cats: seq<Category>, default: Value, i: int, e: Error) {
    && 0 <= i < |cats|
    && CategoryValue(item, names, cats[i], default) == Raise(e)
    && forall j :: 0 <= j < i ==> CategoryValue(item, names, cats[j], default).Ok?
  }

  function CategoryMembers(item: Value, names: seq<string>, cats: seq<Category>, default: Value): (r: Outcome<seq<Member>>)
    ensures r.Ok? ==> Keys(r.value) == CategoryNames(cats)
    ensures r.Ok? ==> forall i :: 0 <= i < |cats| ==> CategoryValue(item, names, cats[i], default) == Ok(r.value[i].val)
    ensures r.Raise? ==> exists i :: CategoryFailsFirst(item, names, cats, default, i, r.error)
  {
    if |cats| == 0 then Ok([])
    else
      var head := CategoryValue(item, names, cats[0], default);
      if head.Raise? then
        assert CategoryFailsFirst(item, names, cats, default, 0, head.error);
        Raise(head.error)
      else
      var rest := CategoryMembers(item, names, cats[1..], default);
      assert forall j :: 0 <= j < |cats| - 1 ==> cats[1..][j] == cats[j + 1];
      if rest.Raise? then
        var i :| CategoryFailsFirst(item, names, cats[1..], default, i, rest.error);
        assert CategoryFailsFirst(item, names, cats, default, i + 1, rest.error);
        rest
      else
        assert CategoryNames(cats) == [cats[0].name] + CategoryNames(cats[1..]);
        Ok([Member(cats[0].name, head.value)] + rest.value)
  }

  /** The `instance` dictionary `metal` builds for one item: one key per category, in
      dictionary order. */
  function MetalItem(item: Value, m: Model, cats: seq<Category>, default: Value): (r: Outcome<Value>)
    ensures r.Ok? ==> r.value.Record? && Keys(r.value.members) == CategoryNames(cats)
    ensures r.Ok? ==> forall i :: 0 <= i < |cats| ==> CategoryValue(item, Names(m.fields), cats[i], default) == GetItem(r.value, cats[i].name)
                                                       || !Distinct(CategoryNames(cats))
  {
    var ms :- CategoryMembers(item, Names(m.fields), cats, default);
    var r := Record(ms);
    if Distinct(CategoryNames(cats)) then
      forall i | 0 <= i < |cats|
        ensures GetItem(r, cats[i].name) == Ok(ms[i].val)
      {
        FindKeyFirst(ms, cats[i].name, i);
      }
      Ok(r)
    else
      Ok(r)
  }

  /** Item `i` is the first whose instance cannot be built; it raises `e`. */
  predicate ItemFailsFirst(items: seq<Value>, m: Model, cats: seq<Category>, default: Value, i: int, e: Error) {
    && 0 <= i < |items|
    && MetalItem(items[i], m, cats, default) == Raise(e)
    && forall j :: 0 <= j < i ==> MetalItem(items[j], m, cats, default).Ok?
  }

  /** The item loop of `metal`: one instance per item, in order. */
  function MetalEach(items: seq<Value>, m: Model, cats: seq<Category>, default: Value): (r: Outcome<seq<Value>>)
    ensures r.Ok? ==> |r.value| == |items|
    ensures r.Ok? ==> forall i :: 0 <= i < |items| ==> MetalItem(items[i], m, cats, default) == Ok(r.value[i])
    ensures r.Raise? ==> exists i :: ItemFailsFirst(items, m, cats, default, i, r.error)
  {
    var f := item => MetalItem(item, m, cats, default);
    var r := MapEach(items, f);
    if r.Raise? then
      var i :| FailsFirst(items, f, i, r.error);
      assert ItemFailsFirst(items, m, cats, default, i, r.error);
      r
    else
      r
  }

  /** `metal(value, model, dicts, default)`: one dictionary per item of `value`, mapping every
      category to the canonical value of a token found in the item's fields. */
  function Metal(value: Value, m: Model, cats: seq<Category>, default: Value): (r: Outcome<Value>)
    ensures Iterate(value).Raise? ==> r == Raise(TypeErr)
    ensures r.Ok? ==> r.value.List? && |r.value.items| == |Iterate(value).value|
    ensures r.Ok? ==> forall i :: 0 <= i < |r.value.items| ==>
                        r.value.items[i].Record? && Keys(r.value.items[i].members) == CategoryNames(cats)
    ensures Iterate(value).Ok? && r.Raise? ==> exists i :: ItemFailsFirst(Iterate(value).value, m, cats, default, i, r.error)
  {
    var items :- Iterate(value);
    var out :- MetalEach(items, m, cats, default);
    Ok(List(out))
  }

  /** `as_is(value)`, as a bare callable a model rule or a trigger list can hold. */
  function AsIs(v: Value): (r: Outcome<Value>)
    ensures r.Ok? && r.value == v
  {
    Ok(v)
  }

  /** A piece as `split` keeps it: stripped and not empty. */
  predicate IsPiece(p: string) {
    p != [] && Strip(p) == p
  }

  /** The pieces `split` keeps from the splitter's output: each one stripped, blank ones dropped. */
  function KeptPieces(parts: seq<string>): (ps: seq<string>)
    ensures |ps| <= |parts|
    ensures forall j :: 0 <= j < |ps| ==> IsPiece(ps[j])
  {
    if |parts| == 0 then []
    else
      var p := Strip(parts[0]);
      var rest := KeptPieces(parts[1..]);
      if p == [] then rest
      else
        assert IsPiece(p) by { StripIdempotent(parts[0]); }
        [p] + rest
  }

  predicate Stamped(rec: Value, key: string, piece: string) {
    rec.Record? && GetItem(rec, key) == Ok(Str(piece))
  }

  /** The interface's in-place pass over an element, the first half of every `model.parse`. */
  function InterfacePass(m: Model): Value -> Outcome<Value> {
    w => Prepare(m, w)
  }

  /** The second half of a parse inside `split`: match the element as the pass left it, then
      overwrite `key` with the piece. */
  function PieceRecord(m: Model, key: string, w: Value, piece: string): (r: Outcome<Value>)
    ensures r.Ok? ==> Stamped(r.value, key, piece)
    ensures Match(m, w).Raise? ==> r == Raise(Match(m, w).error)
  {
    var rec :- Match(m, w);
    Ok(SetItem(rec, key, Str(piece)))
  }

  function PieceRecords(m: Model, key: string): (Value, string) -> Outcome<Value> {
    (w, piece) => PieceRecord(m, key, w, piece)
  }

  /** The records `split` emits for one element `v`: for each piece a fresh `model.parse(v)`
      with `key` set to the piece. The interface pass of each parse acts on `v` in place, so
      the next parse sees the element as the previous one left it. */
  function SplitRecords(v: Value, key: string, pieces: seq<string>, m: Model): (r: Outcome<seq<Value>>)
    ensures r.Ok? ==> |r.value| == |pieces|
    ensures r.Ok? ==> forall j :: 0 <= j < |pieces| ==> Stamped(r.value[j], key, pieces[j])
    ensures |pieces| > 0 ==> (r.Raise? <== Parse(m, v).Raise?)
  {
    var r := Thread(v, pieces, InterfacePass(m), PieceRecords(m, key));
    assert r.Ok? ==> forall j :: 0 <= j < |pieces| ==> Stamped(r.value[j], key, pieces[j]) by {
      if r.Ok? {
        forall j | 0 <= j < |pieces|
          ensures Stamped(r.value[j], key, pieces[j])
        {
          assert EmitAt(v, pieces, InterfacePass(m), PieceRecords(m, key), j) == Ok(r.value[j]);
        }
      }
    }
    assert |pieces| > 0 && Parse(m, v).Raise? ==> !EmitAt(v, pieces, InterfacePass(m), PieceRecords(m, key), 0).Ok?;
    r
  }

  /** The pieces of one element: the splitter applied to `v[key]`, which must be a string. */
  function ElementPieces(v: Value, key: string, delimiter: string -> seq<string>): (r: Outcome<seq<string>>)
    ensures GetItem(v, key).Raise? ==> r == Raise(GetItem(v, key).error)
    ensures GetItem(v, key).Ok? && !GetItem(v, key).value.Str? ==> r == Raise(TypeErr)
    ensures GetItem(v, key).Ok? && GetItem(v, key).value.Str? ==> r == Ok(KeptPieces(delimiter(GetItem(v, key).value.s)))
  {
    var cell :- GetItem(v, key);
    if cell.Str? then Ok(KeptPieces(delimiter(cell.s))) else Raise(TypeErr)
  }

  /** A record whose `key` holds a non-empty string, as every record `split` emits does. */
  predicate Keyed(rec: Value, key: string) {
    rec.Record? && GetItem(rec, key).Ok? && GetItem(rec, key).value.Str? && GetItem(rec, key).value.s != []
  }

  /** Everything `split` emits for one element. */
  function ElementRecords(v: Value, key: string, delimiter: string -> seq<string>, m: Model): (r: Outcome<seq<Value>>)
    ensures r.Ok? ==> forall j :: 0 <= j < |r.value| ==> Keyed(r.value[j], key)
  {
    var pieces :- ElementPieces(v, key, delimiter);
    SplitRecords(v, key, pieces, m)
  }

  /** Element `i` is the first whose records `split` cannot produce; it raises `e`. */
  predicate ElementFailsFirst(items: seq<Value>, key: string, delimiter: string -> seq<string>, m: Model, i: int, e: Error) {
    && 0 <= i < |items|
    && ElementRecords(items[i], key, delimiter, m) == Raise(e)
    && forall j :: 0 <= j < i ==> ElementRecords(items[j], key, delimiter, m).Ok?
  }

  function ElementSplitter(key: string, delimiter: string -> seq<string>, m: Model): Value -> Outcome<seq<Value>> {
    v => ElementRecords(v, key, delimiter, m)
  }

  /** The records of the elements, one element's after another's. */
  function Flatten(rss: seq<seq<Value>>): seq<Value> {
    if |rss| == 0 then [] else rss[0] + Flatten(rss[1..])
  }

  /** Records keyed by `key` stay keyed when the elements' records are put together. */
  lemma {:induction false} FlattenKeyed(rss: seq<seq<Value>>, key: string)
    requires forall i, j :: 0 <= i < |rss| && 0 <= j < |rss[i]| ==> Keyed(rss[i][j], key)
    ensures forall k :: 0 <= k < |Flatten(rss)| ==> Keyed(Flatten(rss)[k], key)
    decreases |rss|
  {
    if |rss| > 0 {
      var rest := rss[1..];
      assert forall i :: 0 <= i < |rest| ==> rest[i] == rss[i + 1];
      FlattenKeyed(rest, key);
      var out := Flatten(rss);
      forall k | 0 <= k < |out|
        ensures Keyed(out[k], key)
      {
        if k < |rss[0]| {
          assert out[k] == rss[0][k];
        } else {
          assert out[k] == Flatten(rest)[k - |rss[0]|];
        }
      }
    }
  }

  /** The element loop of `split`: every element's records, in element order. */
  function SplitEach(items: seq<Value>, key: string, delimiter: string -> seq<string>, m: Model): (r: Outcome<seq<Value>>)
    ensures r.Ok? <==> forall i :: 0 <= i < |items| ==> ElementRecords(items[i], key, delimiter, m).Ok?
    ensures r.Ok? ==> forall j :: 0 <= j < |r.value| ==> Keyed(r.value[j], key)
    ensures r.Raise? ==> exists i :: ElementFailsFirst(items, key, delimiter, m, i, r.error)
  {
    var f := ElementSplitter(key, delimiter, m);
    var rss := MapEach(items, f);
    if rss.Raise? then
      var i :| FailsFirst(items, f, i, rss.error);
      assert ElementFailsFirst(items, key, delimiter, m, i, rss.error);
      Raise(rss.error)
    else
      assert forall i, j :: 0 <= i < |rss.value| && 0 <= j < |rss.value[i]| ==> Keyed(rss.value[i][j], key) by {
        forall i, j | 0 <= i < |rss.value| && 0 <= j < |rss.value[i]|
          ensures Keyed(rss.value[i][j], key)
        {
          assert f(items[i]) == Ok(rss.value[i]);
        }
      }
      FlattenKeyed(rss.value, key);
      Ok(Flatten(rss.value))
  }

  /** `split(value, key, delimiter, model)`: one record per kept piece of every element. */
  function Split(value: Value, key: string, delimiter: string -> seq<string>, m: Model): (r: Outcome<Value>)
    ensures Iterate(value).Raise? ==> r == Raise(TypeErr)
    ensures r.Ok? ==> r.value.List?
    ensures r.Ok? ==> forall j :: 0 <= j < |r.value.items| ==> Keyed(r.value.items[j], key)
    ensures Iterate(value).Ok? ==> (r.Ok? <==> forall i :: 0 <= i < |Iterate(value).value| ==> ElementRecords(Iterate(value).value[i], key, delimiter, m).Ok?)
    ensures Iterate(value).Ok? && r.Raise? ==> exists i :: ElementFailsFirst(Iterate(value).value, key, delimiter, m, i, r.error)
  {
    var items :- Iterate(value);
    var out :- SplitEach(items, key, delimiter, m);
    Ok(List(out))
  }

  /** One element of `match(value, field, token)`: search `v["insertion"]`; on a hit store the
      matched text in `v[field]` and then delete every occurrence of it from `v["insertion"]`,
      read afresh. A miss leaves the element as it is. */
  function MatchElement(v: Value, field: string, search: string -> Option<string>): (r: Outcome<Value>)
    ensures GetItem(v, "insertion").Raise? ==> r == Raise(GetItem(v, "insertion").error)
    ensures GetItem(v, "insertion").Ok? && !GetItem(v, "insertion").value.Str? ==> r == Raise(TypeErr)
    ensures GetItem(v, "insertion").Ok? && GetItem(v, "insertion").value.Str? ==> r.Ok?
    ensures r.Ok? && search(GetItem(v, "insertion").value.s).None? ==> r.value == v
    ensures r.Ok? && search(GetItem(v, "insertion").value.s).Some? ==>
              var t := search(GetItem(v, "insertion").value.s).value;
              var before := if field == "insertion" then t else GetItem(v, "insertion").value.s;
              && r.value.Record?
              && (field != "insertion" ==> GetItem(r.value, field) == Ok(Str(t)))
              && GetItem(r.value, "insertion") == Ok(Str(RemoveAll(before, t)))
              && (forall k :: k != field && k != "insertion" ==> GetItem(r.value, k) == GetItem(v, k))
              && Keys(r.value.members) == (if field in Keys(v.members) then Keys(v.members) else Keys(v.members) + [field])
  {
    var ins :- GetItem(v, "insertion");
    if !ins.Str? then Raise(TypeErr)
    else
      match search(ins.s)
      case None => Ok(v)
      case Some(t) =>
        var v1 := SetItem(v, field, Str(t));
        var again := GetItem(v1, "insertion").value;
        if again.Str? then Ok(SetItem(v1, "insertion", Str(RemoveAll(again.s, t))))
        else Ok(v1)
  }

  /** Element `i` is the first that `match` cannot rewrite; it raises `e`. */
  predicate MatchFailsFirst(items: seq<Value>, field: string, search: string -> Option<string>, i: int, e: Error) {
    && 0 <= i < |items|
    && MatchElement(items[i], field, search) == Raise(e)
    && forall j :: 0 <= j < i ==> MatchElement(items[j], field, search).Ok?
  }

  /** The element loop of `match`: each element rewritten, in order. */
  function MatchEach(items: seq<Value>, field: string, search: string -> Option<string>): (r: Outcome<seq<Value>>)
    ensures r.Ok? <==> forall i :: 0 <= i < |items| ==> MatchElement(items[i], field, search).Ok?
    ensures r.Ok? ==> |r.value| == |items|
    ensures r.Ok? ==> forall i :: 0 <= i < |items| ==> r.value[i] == MatchElement(items[i], field, search).value
    ensures r.Raise? ==> exists i :: MatchFailsFirst(items, field, search, i, r.error)
  {
    var f := v => MatchElement(v, field, search);
    var r := MapEach(items, f);
    if r.Raise? then
      var i :| FailsFirst(items, f, i, r.error);
      assert MatchFailsFirst(items, field, search, i, r.error);
      r
    else
      r
  }

  /** `match(value, field, token)`: the elements are updated in place and `value` itself is
      returned, so a list comes back with its elements rewritten and an empty string or
      dictionary comes back unchanged. */
  function MatchTokens(value: Value, field: string, search: string -> Option<string>): (r: Outcome<Value>)
    ensures Iterate(value).Raise? ==> r == Raise(TypeErr)
    ensures value.List? ==> (r.Ok? <==> forall i :: 0 <= i < |value.items| ==> MatchElement(value.items[i], field, search).Ok?)
    ensures value.List? && r.Ok? ==> r.value.List? && |r.value.items| == |value.items|
    ensures value.List? && r.Ok? ==> forall i :: 0 <= i < |value.items| ==> r.value.items[i] == MatchElement(value.items[i], field, search).value
    ensures !value.List? && r.Ok? ==> r.value == value
    ensures Iterate(value).Ok? && r.Raise? ==> exists i :: MatchFailsFirst(Iterate(value).value, field, search, i, r.error)
  {
    var items :- Iterate(value);
    var out :- MatchEach(items, field, search);
    if value.List? then Ok(List(out)) else Ok(value)
  }
}

=== FILE: helpers_facts.dfy ===
/** Properties of the `main.py` transforms that relate several calls: which token `metal`
    picks, how `split` shares one parse among the pieces of an element, and what `match`
    does to the `insertion` text. */
module MainHelpersFacts {
  import opened PyText
  import opened Values
  import opened ModelInterface
  import opened MainHelpers

  /** The pick of every field, in field order. Picks are pure, so reading them all in advance
      and scanning the results gives the same outcome as picking field by field. */
  function Picks(item: Value, names: seq<string>, tokens: seq<TokenEntry>): (ps: seq<Outcome<Option<Value>>>)
    requires |tokens| > 0
    ensures |ps| == |names|
    ensures forall i :: 0 <= i < |names| ==> ps[i] == FieldPick(item, names[i], tokens)
  {
    seq(|names|, i requires 0 <= i < |names| => FieldPick(item, names[i], tokens))
  }

  /** The field loop of `metal` over picks made in advance. */
  function ScanPicks(ps: seq<Outcome<Option<Value>>>, cur: Value): Outcome<Value>
    decreases |ps|
  {
    if |ps| == 0 then Ok(cur)
    else
      match ps[0]
      case Raise(e) => Raise(e)
      case Ok(pick) =>
        var next := if pick.Some? then pick.value else cur;
        if Truthy(next) then Ok(next) else ScanPicks(ps[1..], next)
  }

  lemma {:induction false} ScanFieldsIsScanPicks(item: Value, names: seq<string>, tokens: seq<TokenEntry>, cur: Value)
    requires |tokens| > 0
    ensures ScanFields(item, names, tokens, cur) == ScanPicks(Picks(item, names, tokens), cur)
    decreases |names|
  {
    if |names| > 0 {
      var ps := Picks(item, names, tokens);
      var tail := Picks(item, names[1..], tokens);
      assert ps[1..] == tail by {
        forall i | 0 <= i < |tail|
          ensures ps[1..][i] == tail[i]
        {
          assert names[1..][i] == names[i + 1];
        }
      }
      if ps[0].Ok? {
        var pick := ps[0].value;
        ScanFieldsIsScanPicks(item, names[1..], tokens, if pick.Some? then pick.value else cur);
      }
    }
  }

  /** A pick that leaves nothing truthy in the category: the lookup succeeds and the field holds
      no token, or its first token stands for a falsy value. */
  predicate Falsy(p: Outcome<Option<Value>>) {
    p.Ok? && (p.value.None? || !Truthy(p.value.value))
  }

  /** A field that picks nothing truthy. */
  predicate NoTruthyPick(item: Value, name: string, tokens: seq<TokenEntry>)
    requires |tokens| > 0
  {
    Falsy(FieldPick(item, name, tokens))
  }

  /** What is left in the category after a run of falsy picks: the canonical value of the last
      one that found a token, or the starting value. */
  function LastPick(ps: seq<Outcome<Option<Value>>>, cur: Value): Value
    requires forall i :: 0 <= i < |ps| ==> Falsy(ps[i])
    decreases |ps|
  {
    if |ps| == 0 then cur
    else
      assert Falsy(ps[0]);
      var pick := ps[0].value;
      LastPick(ps[1..], if pick.Some? then pick.value else cur)
  }

  lemma {:induction false} LastPickFalsy(ps: seq<Outcome<Option<Value>>>, cur: Value)
    requires !Truthy(cur)
    requires forall i :: 0 <= i < |ps| ==> Falsy(ps[i])
    ensures !Truthy(LastPick(ps, cur))
    decreases |ps|
  {
    if |ps| > 0 {
      assert Falsy(ps[0]);
      var pick := ps[0].value;
      LastPickFalsy(ps[1..], if pick.Some? then pick.value else cur);
    }
  }

  /** The scan stops at the first pick that stands for a truthy value. */
  lemma {:induction false} ScanStopsAtFirstTruthyPick(ps: seq<Outcome<Option<Value>>>, cur: Value, k: nat, c: Value)
    requires !Truthy(cur) && k < |ps|
    requires forall i :: 0 <= i < k ==> Falsy(ps[i])
    requires ps[k] == Ok(Some(c)) && Truthy(c)
    ensures ScanPicks(ps, cur) == Ok(c)
    decreases k
  {
    if k > 0 {
      assert Falsy(ps[0]);
      var pick := ps[0].value;
      ScanStopsAtFirstTruthyPick(ps[1..], if pick.Some? then pick.value else cur, k - 1, c);
    }
  }

  /** A failed lookup before any truthy pick aborts the scan. */
  lemma {:induction false} ScanAbortsAtFailedPick(ps: seq<Outcome<Option<Value>>>, cur: Value, k: nat)
    requires !Truthy(cur) && k < |ps|
    requires forall i :: 0 <= i < k ==> Falsy(ps[i])
    requires ps[k].Raise?
    ensures ScanPicks(ps, cur) == Raise(ps[k].error)
    decreases k
  {
    if k > 0 {
      assert Falsy(ps[0]);
      var pick := ps[0].value;
      ScanAbortsAtFailedPick(ps[1..], if pick.Some? then pick.value else cur, k - 1);
    }
  }

  /** With no truthy pick the scan reads every field and ends with the last falsy pick. */
  lemma {:induction false} ScanWithoutTruthyPick(ps: seq<Outcome<Option<Value>>>, cur: Value)
    requires !Truthy(cur)
    requires forall i :: 0 <= i < |ps| ==> Falsy(ps[i])
    ensures ScanPicks(ps, cur) == Ok(LastPick(ps, cur))
    decreases |ps|
  {
    if |ps| > 0 {
      assert Falsy(ps[0]);
      var pick := ps[0].value;
      ScanWithoutTruthyPick(ps[1..], if pick.Some? then pick.value else cur);
    }
  }

  /** A category without tokens takes the default without looking up any field. */
  lemma CategoryValueWithoutTokens(item: Value, names: seq<string>, cat: Category, default: Value)
    requires |cat.tokens| == 0
    ensures CategoryValue(item, names, cat, default) == Ok(default)
  {
  }

  /** When no field picks anything truthy, the category takes the default. */
  lemma CategoryValueDefault(item: Value, names: seq<string>, cat: Category, default: Value)
    requires |cat.tokens| > 0
    requires forall i :: 0 <= i < |names| ==> NoTruthyPick(item, names[i], cat.tokens)
    ensures CategoryValue(item, names, cat, default) == Ok(default)
  {
    var ps := Picks(item, names, cat.tokens);
    ScanFieldsIsScanPicks(item, names, cat.tokens, Null);
    ScanWithoutTruthyPick(ps, Null);
    LastPickFalsy(ps, Null);
  }

  /** The category takes the first truthy pick in field order. */
  lemma CategoryValueFirstTruthy(item: Value, names: seq<string>, cat: Category, default: Value, k: nat)
    requires |cat.tokens| > 0 && k < |names|
    requires forall i :: 0 <= i < k ==> NoTruthyPick(item, names[i], cat.tokens)
    requires FieldPick(item, names[k], cat.tokens).Ok? && FieldPick(item, names[k], cat.tokens).value.Some?
    requires Truthy(FieldPick(item, names[k], cat.tokens).value.value)
    ensures CategoryValue(item, names, cat, default) == Ok(FieldPick(item, names[k], cat.tokens).value.value)
  {
    var ps := Picks(item, names, cat.tokens);
    ScanFieldsIsScanPicks(item, names, cat.tokens, Null);
    ScanStopsAtFirstTruthyPick(ps, Null, k, ps[k].value.value);
  }

  /** A field that cannot be looked up, met before any truthy pick, makes `metal` raise the
      lookup's error. */
  lemma CategoryValueAborts(item: Value, names: seq<string>, cat: Category, default: Value, k: nat)
    requires |cat.tokens| > 0 && k < |names|
    requires forall i :: 0 <= i < k ==> NoTruthyPick(item, names[i], cat.tokens)
    requires FieldText(item, names[k]).Raise?
    ensures CategoryValue(item, names, cat, default) == Raise(FieldText(item, names[k]).error)
  {
    var ps := Picks(item, names, cat.tokens);
    ScanFieldsIsScanPicks(item, names, cat.tokens, Null);
    ScanAbortsAtFailedPick(ps, Null, k);
  }

  /** `as_is` is a neutral step in a trigger list and, as a model rule, copies the field. */
  lemma AsIsIsNeutral(tlist: seq<Step>, f: ModelField, v: Value)
    ensures RunTrigger([Simple(AsIs)] + tlist, v) == RunTrigger(tlist, v)
    ensures f.rule == Simple(AsIs) ==> FieldValue(f, v) == Ok(GetItem(v, f.name).GetOr(Null))
  {
    assert ([Simple(AsIs)] + tlist)[1..] == tlist;
  }

  /** Parts with text in them are all kept, stripped, in order. */
  lemma {:induction false} KeptPiecesOfFilledParts(parts: seq<string>)
    requires forall j :: 0 <= j < |parts| ==> Strip(parts[j]) != []
    ensures |KeptPieces(parts)| == |parts|
    ensures forall j :: 0 <= j < |parts| ==> KeptPieces(parts)[j] == Strip(parts[j])
  {
    if |parts| > 0 {
      var rest := parts[1..];
      assert forall j :: 0 <= j < |rest| ==> rest[j] == parts[j + 1];
      KeptPiecesOfFilledParts(rest);
      var ps := KeptPieces(parts);
      assert ps == [Strip(parts[0])] + KeptPieces(rest);
      forall j | 0 <= j < |parts|
        ensures ps[j] == Strip(parts[j])
      {
        if j > 0 {
          assert parts[j] == rest[j - 1];
        }
      }
    }
  }

  /** A single part is kept, stripped, exactly when it has text in it. */
  lemma KeptPiecesOfOnePart(p: string)
    ensures KeptPieces([p]) == if Strip(p) == [] then [] else [Strip(p)]
  {
    assert [p][1..] == [];
  }

  /** Pieces are kept part by part: the pieces of `a + b` are those of `a`, then those of `b`.
      With `KeptPiecesOfOnePart` this fixes the pieces of any mix of filled and blank parts. */
  lemma {:induction false} KeptPiecesAppend(a: seq<string>, b: seq<string>)
    ensures KeptPieces(a + b) == KeptPieces(a) + KeptPieces(b)
    decreases |a|
  {
    if |a| == 0 {
      assert a + b == b;
    } else {
      assert (a + b)[0] == a[0];
      assert (a + b)[1..] == a[1..] + b;
      KeptPiecesAppend(a[1..], b);
    }
  }

  /** Keeping the kept pieces again changes nothing. */
  lemma KeptPiecesIdempotent(parts: seq<string>)
    ensures KeptPieces(KeptPieces(parts)) == KeptPieces(parts)
  {
    var ps := KeptPieces(parts);
    KeptPiecesOfFilledParts(ps);
  }

  /** Parts that are all blank keep nothing. */
  lemma {:induction false} KeptPiecesOfBlankParts(parts: seq<string>)
    requires forall j :: 0 <= j < |parts| ==> Strip(parts[j]) == []
    ensures KeptPieces(parts) == []
  {
    if |parts| > 0 {
      var rest := parts[1..];
      assert forall j :: 0 <= j < |rest| ==> rest[j] == parts[j + 1];
      KeptPiecesOfBlankParts(rest);
    }
  }

  /** An element whose key holds only blank pieces contributes no record to `split`. */
  lemma BlankElementContributesNothing(v: Value, key: string, delimiter: string -> seq<string>, m: Model)
    requires GetItem(v, key).Ok? && GetItem(v, key).value.Str?
    requires var parts := delimiter(GetItem(v, key).value.s);
             forall j :: 0 <= j < |parts| ==> Strip(parts[j]) == []
    ensures ElementRecords(v, key, delimiter, m) == Ok([])
  {
    KeptPiecesOfBlankParts(delimiter(GetItem(v, key).value.s));
  }

  /** `split` emits the records of the first element, then those of the second, and so on:
      when element `i` yields the records `rss[i]`, the whole output is their concatenation. */
  lemma SplitEachConcatenates(items: seq<Value>, key: string, delimiter: string -> seq<string>, m: Model,
                              rss: seq<seq<Value>>)
    requires |rss| == |items|
    requires forall i :: 0 <= i < |items| ==> ElementRecords(items[i], key, delimiter, m) == Ok(rss[i])
    ensures SplitEach(items, key, delimiter, m) == Ok(Flatten(rss))
  {
    var f := ElementSplitter(key, delimiter, m);
    assert forall i :: 0 <= i < |items| ==> f(items[i]) == Ok(rss[i]);
    var r := MapEach(items, f);
    assert r.value == rss;
  }

  /** The parse `split` runs for piece `j` of an element: each earlier parse has run the
      interface's pass over the element in place, and this one runs it once more before its
      `match`, so the `match` sees the element after `j + 1` passes. */
  function PieceParse(m: Model, v: Value, j: nat): Outcome<Value> {
    var w :- Stepped(v, InterfacePass(m), j);
    Match(m, w)
  }

  /** The parse of piece `j` succeeds, with a dictionary as every parse returns. */
  predicate ParsesAt(m: Model, v: Value, j: nat) {
    PieceParse(m, v, j).Ok? && PieceParse(m, v, j).value.Record?
  }

  /** The parse of piece 0 is the element's own parse, and the parse of piece `j > 0` is the
      parse of piece `j - 1` of the element as the first pass left it. */
  lemma PieceParseIsParse(m: Model, v: Value, j: nat)
    ensures PieceParse(m, v, 0) == Parse(m, v)
    ensures Prepare(m, v).Raise? ==> PieceParse(m, v, j) == Raise(Prepare(m, v).error)
    ensures j > 0 && Prepare(m, v).Ok? ==> PieceParse(m, v, j) == PieceParse(m, Prepare(m, v).value, j - 1)
  {
    assert Stepped(v, InterfacePass(m), 0) == Prepare(m, v);
  }

  /** What the walk over the pieces emits for piece `j` is the parse of piece `j` with `key`
      set, or that parse's error. */
  lemma EmitAtIsPieceParse(v: Value, key: string, pieces: seq<string>, m: Model, j: nat)
    requires j < |pieces|
    ensures EmitAt(v, pieces, InterfacePass(m), PieceRecords(m, key), j).Ok? <==> ParsesAt(m, v, j)
    ensures ParsesAt(m, v, j) ==>
              EmitAt(v, pieces, InterfacePass(m), PieceRecords(m, key), j) == Ok(SetItem(PieceParse(m, v, j).value, key, Str(pieces[j])))
    ensures !ParsesAt(m, v, j) ==> EmitAt(v, pieces, InterfacePass(m), PieceRecords(m, key), j) == PieceParse(m, v, j)
  {
    var st := Stepped(v, InterfacePass(m), j);
    if st.Ok? {
      assert EmitAt(v, pieces, InterfacePass(m), PieceRecords(m, key), j) == PieceRecord(m, key, st.value, pieces[j]);
    }
  }

  /** Record `j` of an element is the parse of piece `j` with `key` overwritten by piece `j`. */
  lemma SplitRecordsAt(v: Value, key: string, pieces: seq<string>, m: Model)
    requires SplitRecords(v, key, pieces, m).Ok?
    ensures |SplitRecords(v, key, pieces, m).value| == |pieces|
    ensures forall j :: 0 <= j < |pieces| ==>
              && ParsesAt(m, v, j)
              && SplitRecords(v, key, pieces, m).value[j] == SetItem(PieceParse(m, v, j).value, key, Str(pieces[j]))
  {
    var rs := SplitRecords(v, key, pieces, m).value;
    forall j | 0 <= j < |pieces|
      ensures ParsesAt(m, v, j)
      ensures rs[j] == SetItem(PieceParse(m, v, j).value, key, Str(pieces[j]))
    {
      EmitAtIsPieceParse(v, key, pieces, m, j);
    }
  }

  /** An element's split fails exactly when the parse of one of its pieces fails, and then it
      raises the error of the first piece whose parse fails. */
  lemma SplitRecordsFailsFirst(v: Value, key: string, pieces: seq<string>, m: Model)
    ensures SplitRecords(v, key, pieces, m).Raise? ==>
              exists j :: 0 <= j < |pieces| && (forall l :: 0 <= l < j ==> ParsesAt(m, v, l))
                          && PieceParse(m, v, j) == Raise(SplitRecords(v, key, pieces, m).error)
    ensures (exists j :: 0 <= j < |pieces| && !ParsesAt(m, v, j)) ==> SplitRecords(v, key, pieces, m).Raise?
  {
    var step, emit := InterfacePass(m), PieceRecords(m, key);
    forall j | 0 <= j < |pieces|
      ensures EmitAt(v, pieces, step, emit, j).Ok? <==> ParsesAt(m, v, j)
      ensures !ParsesAt(m, v, j) ==> EmitAt(v, pieces, step, emit, j) == PieceParse(m, v, j)
    {
      EmitAtIsPieceParse(v, key, pieces, m, j);
    }
    var r := SplitRecords(v, key, pieces, m);
    if r.Raise? {
      var j :| ThreadFailsFirst(v, pieces, step, emit, j, r.error);
      assert PieceParse(m, v, j) == Raise(r.error);
    }
  }

  /** What `split` emits for one element: one record per kept piece, record `j` being the parse
      of piece `j` with `key` set to piece `j`. */
  lemma ElementRecordsArePieceParses(v: Value, key: string, delimiter: string -> seq<string>, m: Model)
    requires ElementRecords(v, key, delimiter, m).Ok?
    ensures ElementPieces(v, key, delimiter).Ok?
    ensures var ps := ElementPieces(v, key, delimiter).value;
            var rs := ElementRecords(v, key, delimiter, m).value;
            && |rs| == |ps|
            && forall j :: 0 <= j < |ps| ==>
                 ParsesAt(m, v, j) && rs[j] == SetItem(PieceParse(m, v, j).value, key, Str(ps[j]))
  {
    var ps := ElementPieces(v, key, delimiter).value;
    SplitRecordsAt(v, key, ps, m);
  }

  /** The first record `split` emits for an element is that element's parse with `key` set. */
  lemma SplitFirstRecordIsParse(v: Value, key: string, pieces: seq<string>, m: Model)
    requires |pieces| > 0 && SplitRecords(v, key, pieces, m).Ok?
    ensures Parse(m, v).Ok?
    ensures SplitRecords(v, key, pieces, m).value[0] == SetItem(Parse(m, v).value, key, Str(pieces[0]))
  {
    SplitRecordsAt(v, key, pieces, m);
    PieceParseIsParse(m, v, 0);
  }

  /** The records of `pieces` stamped, one by one, onto copies of the same record `rec`. */
  function Stamps(rec: Value, key: string, pieces: seq<string>): (rs: seq<Value>)
    requires rec.Record?
    ensures |rs| == |pieces|
    ensures forall j :: 0 <= j < |pieces| ==> rs[j] == SetItem(rec, key, Str(pieces[j]))
  {
    if |pieces| == 0 then [] else [SetItem(rec, key, Str(pieces[0]))] + Stamps(rec, key, pieces[1..])
  }

  /** Without an interface every piece of an element gets the same parse: the records differ
      only in `key`. */
  lemma {:induction false} SplitWithoutInterface(v: Value, key: string, pieces: seq<string>, m: Model)
    requires m.iface.None? && |pieces| > 0
    ensures Match(m, v).Raise? ==> SplitRecords(v, key, pieces, m) == Raise(Match(m, v).error)
    ensures Match(m, v).Ok? ==> SplitRecords(v, key, pieces, m) == Ok(Stamps(Match(m, v).value, key, pieces))
    decreases |pieces|
  {
    assert Prepare(m, v) == Ok(v);
    if Match(m, v).Ok? && |pieces| > 1 {
      SplitWithoutInterface(v, key, pieces[1..], m);
    }
  }

  /** When the search finds a non-empty text in the insertion and stores it in another field,
      the insertion gets strictly shorter; stored into `insertion` itself, it empties it. */
  lemma MatchElementConsumesToken(v: Value, field: string, search: string -> Option<string>)
    requires GetItem(v, "insertion").Ok? && GetItem(v, "insertion").value.Str?
    requires search(GetItem(v, "insertion").value.s).Some?
    requires var t := search(GetItem(v, "insertion").value.s).value;
             |t| > 0 && Contains(GetItem(v, "insertion").value.s, t)
    ensures MatchElement(v, field, search).Ok?
    ensures field != "insertion" ==>
              |GetItem(MatchElement(v, field, search).value, "insertion").value.s| < |GetItem(v, "insertion").value.s|
    ensures field == "insertion" ==> GetItem(MatchElement(v, field, search).value, "insertion") == Ok(Str([]))
  {
    var s := GetItem(v, "insertion").value.s;
    var t := search(s).value;
    if field == "insertion" {
      RemoveAllSelf(t);
    } else {
      RemoveAllShrinks(s, t);
    }
  }

  /** When the search finds nothing in any element, `match` returns the value unchanged. */
  lemma MatchTokensMissLeavesValue(value: Value, field: string, search: string -> Option<string>)
    requires value.List?
    requires forall i :: 0 <= i < |value.items| ==>
               GetItem(value.items[i], "insertion").Ok? && GetItem(value.items[i], "insertion").value.Str?
               && search(GetItem(value.items[i], "insertion").value.s).None?
    ensures MatchTokens(value, field, search) == Ok(value)
  {
    var r := MatchTokens(value, field, search);
    assert r.value.items == value.items;
  }
}

=== FILE: parsers.dfy ===
/** The total coercions `parse_bool`, `parse_str` and `parse_list` of
    `ModelInterface/__init__.py`: none of them raises, malformed input becomes `None`. */
module Parsers {
  import opened PyText
  import opened Values

  /** `s[:6]`. */
  function Window(s: string): (r: string)
    ensures |r| == (if |s| <= 6 then |s| else 6) && r == s[..|r|]
  {
    if |s| <= 6 then s else s[..6]
  }

  /** The text `parse_bool` compares for a printed value `s`: its first six characters,
      stripped and title-cased. */
  function TextToken(s: string): string {
    Title(Strip(Window(s)))
  }

  /** The token of a value is the token of `str(value)`. */
  function BoolToken(v: Value): string {
    TextToken(Show(v))
  }

  predicate TrueToken(t: string) { t == "1" || t == "True" }
  predicate FalseToken(t: string) { t == "0" || t == "False" }

  /** `parse_bool(value)`. */
  function ParseBool(v: Value): (r: Value)
    ensures r == Bool(true) || r == Bool(false) || r == Null
    ensures r == Bool(true) <==> TrueToken(BoolToken(v))
    ensures r == Bool(false) <==> FalseToken(BoolToken(v))
  {
    var t := BoolToken(v);
    if TrueToken(t) then Bool(true)
    else if FalseToken(t) then Bool(false)
    else Null
  }

  /** Text that neither starts nor ends with white space is its own strip. */
  lemma StripNoSpace(s: string)
    requires |s| == 0 || (!IsSpace(s[0]) && !IsSpace(s[|s| - 1]))
    ensures Strip(s) == s
  {
    if |s| > 0 {
      assert !IsSpace(s[0]);
      assert LStrip(s) == s;
      assert !IsSpace(s[|s| - 1]);
      assert RStrip(s) == s;
    }
  }

  /** Text that starts and ends with a letter is its own strip. */
  lemma StripWord(s: string)
    requires 0 < |s| && IsAsciiLetter(s[0]) && IsAsciiLetter(s[|s| - 1])
    ensures Strip(s) == s
  {
    StripNoSpace(s);
  }

  lemma {:induction false} TitleNoLetters(s: string, afterLetter: bool)
    requires forall i :: 0 <= i < |s| ==> !IsAsciiLetter(s[i])
    ensures TitleFrom(s, afterLetter) == s
  {
    if |s| > 0 {
      TitleNoLetters(s[1..], IsAsciiLetter(s[0]));
      assert AsciiLower(s[0]) == s[0] && AsciiUpper(s[0]) == s[0];
    }
  }

  /** A word of letters title-cases to its first letter upper-cased and the rest lower-cased. */
  lemma TitleOfWord(w: string)
    requires |w| > 0 && forall i :: 0 <= i < |w| ==> IsAsciiLetter(w[i])
    ensures |Title(w)| == |w| && Title(w)[0] == AsciiUpper(w[0])
    ensures forall i :: 0 < i < |w| ==> Title(w)[i] == AsciiLower(w[i])
  {
    var t := Title(w);
    TitleAt(w, false);
    forall i | 0 < i < |w|
      ensures t[i] == AsciiLower(w[i])
    {
      assert IsAsciiLetter(w[i - 1]);
    }
  }

  /** A short word that starts and ends with a letter is its own token up to title case. */
  lemma TextTokenOfWord(w: string)
    requires 0 < |w| <= 6 && IsAsciiLetter(w[0]) && IsAsciiLetter(w[|w| - 1])
    ensures TextToken(w) == Title(w)
  {
    assert Window(w) == w;
    StripWord(w);
  }

  /** A word of letters whose first letter alone is upper case. */
  predicate Capitalised(w: string) {
    |w| > 0 && IsUpperAscii(w[0]) && forall i :: 0 < i < |w| ==> IsLowerAscii(w[i])
  }

  lemma CapitalisedWords()
    ensures Capitalised("True") && Capitalised("False") && Capitalised("None")
  {
    assert forall i :: 0 < i < 4 ==> IsLowerAscii("True"[i]) by {
      assert "True"[1] == 'r' && "True"[2] == 'u' && "True"[3] == 'e';
    }
    assert forall i :: 0 < i < 5 ==> IsLowerAscii("False"[i]) by {
      assert "False"[1] == 'a' && "False"[2] == 'l' && "False"[3] == 's' && "False"[4] == 'e';
    }
    assert forall i :: 0 < i < 4 ==> IsLowerAscii("None"[i]) by {
      assert "None"[1] == 'o' && "None"[2] == 'n' && "None"[3] == 'e';
    }
  }

  /** A capitalised word is its own title case. */
  lemma TitleOfCapitalised(w: string)
    requires Capitalised(w)
    ensures Title(w) == w
  {
    TitleOfWord(w);
  }

  /** A capitalised word of at most six letters is its own token. */
  lemma TextTokenOfCapitalised(w: string)
    requires |w| <= 6 && Capitalised(w)
    ensures TextToken(w) == w
  {
    assert IsAsciiLetter(w[|w| - 1]);
    TextTokenOfWord(w);
    TitleOfCapitalised(w);
  }

  lemma BoolTokenOfTrue()
    ensures BoolToken(Bool(true)) == "True"
  {
    CapitalisedWords();
    TextTokenOfCapitalised("True");
  }

  lemma BoolTokenOfFalse()
    ensures BoolToken(Bool(false)) == "False"
  {
    CapitalisedWords();
    TextTokenOfCapitalised("False");
  }

  /** `str(True)` and `str(False)` parse back to the same boolean. */
  lemma ParseBoolOfBool(b: bool)
    ensures ParseBool(Bool(b)) == Bool(b)
  {
    if b {
      BoolTokenOfTrue();
    } else {
      BoolTokenOfFalse();
    }
  }

  /** A sign or a digit. */
  predicate IsNumeralChar(c: char) {
    c == '-' || '0' <= c <= '9'
  }

  lemma StripNumeral(p: string)
    requires forall i :: 0 <= i < |p| ==> IsNumeralChar(p[i])
    ensures Strip(p) == p
  {
    if |p| > 0 {
      assert IsNumeralChar(p[0]) && IsNumeralChar(p[|p| - 1]);
      StripNoSpace(p);
    }
  }

  lemma TitleNumeral(p: string)
    requires forall i :: 0 <= i < |p| ==> IsNumeralChar(p[i])
    ensures Title(p) == p
  {
    TitleNoLetters(p, false);
  }

  /** Signs and digits are neither blanks nor letters, so stripping and title-casing keep them. */
  lemma NumeralToken(p: string)
    requires |p| <= 6 && forall i :: 0 <= i < |p| ==> IsNumeralChar(p[i])
    ensures TextToken(p) == p
  {
    assert Window(p) == p;
    StripNumeral(p);
    TitleNumeral(p);
  }

  lemma DecimalChars(n: int)
    ensures forall i :: 0 <= i < |Decimal(n)| ==> IsNumeralChar(Decimal(n)[i])
  {
    if n < 0 {
      assert forall i :: 0 < i < |Decimal(n)| ==> Decimal(n)[i] == Natural(-n)[i - 1];
    }
  }

  /** The first six characters of `str(n)`. */
  function DecimalWindow(n: int): (r: string)
    ensures |r| > 0 && r[0] == Decimal(n)[0]
    ensures |r| == 1 <==> |Decimal(n)| == 1
    ensures forall i :: 0 <= i < |r| ==> IsNumeralChar(r[i])
  {
    DecimalChars(n);
    Window(Decimal(n))
  }

  /** The token of an integer is the first six characters of its decimal form. */
  lemma BoolTokenOfInt(n: int)
    ensures BoolToken(Int(n)) == DecimalWindow(n)
  {
    assert Show(Int(n)) == Decimal(n);
    NumeralToken(DecimalWindow(n));
  }

  lemma DecimalWindowTokens(n: int)
    ensures TrueToken(DecimalWindow(n)) <==> n == 1
    ensures FalseToken(DecimalWindow(n)) <==> n == 0
  {
    DecimalSingleChar(n);
    var t := DecimalWindow(n);
    assert t != "True" && t != "False" by {
      assert "True"[0] == 'T' && "False"[0] == 'F';
    }
  }

  lemma IntTokens(n: int)
    ensures TrueToken(BoolToken(Int(n))) <==> n == 1
    ensures FalseToken(BoolToken(Int(n))) <==> n == 0
  {
    BoolTokenOfInt(n);
    DecimalWindowTokens(n);
  }

  /** An integer parses as `True` exactly when it is 1 and as `False` exactly when it is 0. */
  lemma ParseBoolOfInt(n: int)
    ensures ParseBool(Int(n)) == if n == 1 then Bool(true) else if n == 0 then Bool(false) else Null
  {
    IntTokens(n);
  }

  lemma BoolTokenOfNull()
    ensures BoolToken(Null) == "None"
  {
    CapitalisedWords();
    TextTokenOfCapitalised("None");
  }

  /** `str(None)` is `'None'`, which is not one of the four tokens. */
  lemma ParseBoolOfNull()
    ensures ParseBool(Null) == Null
  {
    BoolTokenOfNull();
  }

  lemma StripHead(p: string)
    requires |p| > 0 && !IsSpace(p[0])
    ensures |Strip(p)| > 0 && Strip(p)[0] == p[0]
  {
    assert LStrip(p) == p;
    RStripShape(p);
  }

  lemma TitleHead(q: string)
    requires |q| > 0 && !IsAsciiLetter(q[0])
    ensures |Title(q)| > 0 && Title(q)[0] == q[0]
  {
  }

  /** Printed text that starts with neither a blank nor a letter keeps that first character at
      the head of its token. */
  lemma TextTokenHead(s: string)
    requires |s| > 0 && !IsSpace(s[0]) && !IsAsciiLetter(s[0])
    ensures |TextToken(s)| > 0 && TextToken(s)[0] == s[0]
  {
    var p := Window(s);
    assert p[0] == s[0];
    StripHead(p);
    TitleHead(Strip(p));
  }

  lemma BracketTokens(s: string)
    requires |s| > 0 && (s[0] == '[' || s[0] == '{')
    ensures !TrueToken(TextToken(s)) && !FalseToken(TextToken(s))
  {
    TextTokenHead(s);
    var t := TextToken(s);
    assert t != "1" && t != "True" && t != "0" && t != "False" by {
      assert "1"[0] == '1' && "True"[0] == 'T' && "0"[0] == '0' && "False"[0] == 'F';
    }
  }

  lemma ContainerTokens(v: Value)
    requires v.List? || v.Record?
    ensures !TrueToken(BoolToken(v)) && !FalseToken(BoolToken(v))
  {
    BracketTokens(Show(v));
  }

  /** Lists and dictionaries print with a bracket first, so they never parse as booleans. */
  lemma ParseBoolOfContainer(v: Value)
    requires v.List? || v.Record?
    ensures ParseBool(v) == Null
  {
    ContainerTokens(v);
  }

  /** `w` is a word of letters that reads as the capitalised word `t` up to case. */
  predicate SpellsAs(w: string, t: string) {
    && (forall i :: 0 <= i < |w| ==> IsAsciiLetter(w[i]))
    && Capitalised(t)
    && Lower(w) == Lower(t)
  }

  lemma TitleOfSpelling(w: string, t: string)
    requires SpellsAs(w, t)
    ensures Title(w) == t
  {
    LowerAt(w);
    LowerAt(t);
    TitleOfWord(w);
    assert AsciiUpper(w[0]) == t[0] by {
      assert Lower(w)[0] == Lower(t)[0];
    }
    forall i | 0 < i < |w|
      ensures Title(w)[i] == t[i]
    {
      assert Lower(w)[i] == Lower(t)[i];
    }
  }

  /** A word of at most six letters that reads as a capitalised word up to case has that word
      as its token. */
  lemma TextTokenOfSpelling(w: string, t: string)
    requires |w| <= 6 && SpellsAs(w, t)
    ensures TextToken(w) == t
  {
    assert IsAsciiLetter(w[0]) && IsAsciiLetter(w[|w| - 1]);
    TextTokenOfWord(w);
    TitleOfSpelling(w, t);
  }

  lemma LowerOfWords()
    ensures Lower("True") == "true" && Lower("False") == "false"
  {
  }

  /** Letters are compared without regard to case: any spelling of `true` or `false` of at
      most six letters parses as the boolean it names. */
  lemma ParseBoolIgnoresCase(w: string)
    requires |w| <= 6 && forall i :: 0 <= i < |w| ==> IsAsciiLetter(w[i])
    ensures Lower(w) == "true" ==> ParseBool(Str(w)) == Bool(true)
    ensures Lower(w) == "false" ==> ParseBool(Str(w)) == Bool(false)
  {
    CapitalisedWords();
    LowerOfWords();
    if Lower(w) == "true" {
      TextTokenOfSpelling(w, "True");
    } else if Lower(w) == "false" {
      TextTokenOfSpelling(w, "False");
    }
  }

  /** `k` blanks. */
  function Blanks(k: nat): (r: string)
    ensures |r| == k && forall i :: 0 <= i < k ==> r[i] == ' '
  {
    seq(k, i => ' ')
  }

  lemma {:induction false} LStripBlanks(k: nat, t: string)
    requires t == [] || !IsSpace(t[0])
    ensures LStrip(Blanks(k) + t) == t
  {
    if k > 0 {
      assert (Blanks(k) + t)[1..] == Blanks(k - 1) + t;
      LStripBlanks(k - 1, t);
    }
  }

  /** The part of `True` left in the six-character window behind `k` blanks. */
  function TrueInWindow(k: nat): (r: string)
    ensures |r| <= 4 && r == "True"[..|r|]
    ensures |r| == 4 <==> k <= 2
  {
    "True"[..if k >= 6 then 0 else if k <= 2 then 4 else 6 - k]
  }

  lemma BlankWindow(k: nat)
    ensures Window(Blanks(k) + "True") == Blanks(if k <= 6 then k else 6) + TrueInWindow(k)
  {
    var p := Window(Blanks(k) + "True");
    var q := Blanks(if k <= 6 then k else 6) + TrueInWindow(k);
    assert |p| == |q|;
    forall i | 0 <= i < |p|
      ensures p[i] == q[i]
    {
      if i >= k {
        assert p[i] == "True"[i - k];
      }
    }
  }

  lemma TitleOfTrueInWindow(k: nat)
    ensures Title(TrueInWindow(k)) == TrueInWindow(k)
  {
    var t := TrueInWindow(k);
    if |t| > 0 {
      assert forall i :: 0 <= i < |t| ==> t[i] == "True"[i];
      TitleOfWord(t);
    }
  }

  lemma StripBlankWindow(k: nat)
    ensures Strip(Blanks(if k <= 6 then k else 6) + TrueInWindow(k)) == TrueInWindow(k)
  {
    var t := TrueInWindow(k);
    var b := if k <= 6 then k else 6;
    assert t == [] || (!IsSpace(t[0]) && !IsSpace(t[|t| - 1])) by {
      assert forall i :: 0 <= i < |t| ==> t[i] == "True"[i];
    }
    LStripBlanks(b, t);
    assert RStrip(t) == t;
  }

  lemma LeadingBlanksToken(k: nat)
    ensures BoolToken(Str(Blanks(k) + "True")) == TrueInWindow(k)
  {
    BlankWindow(k);
    StripBlankWindow(k);
    TitleOfTrueInWindow(k);
  }

  lemma TrueInWindowTokens(k: nat)
    ensures TrueToken(TrueInWindow(k)) <==> k <= 2
    ensures !FalseToken(TrueInWindow(k))
  {
    var t := TrueInWindow(k);
    assert t != "1" && t != "0" && t != "False" by {
      assert |t| > 0 ==> t[0] == 'T';
      assert "1"[0] == '1' && "0"[0] == '0' && |"False"| == 5;
    }
  }

  /** The six-character window is taken before stripping, so blanks in front of `True` count
      towards the six: up to two are harmless, a third pushes a letter out of the window. */
  lemma ParseBoolLeadingBlanks(k: nat)
    ensures ParseBool(Str(Blanks(k) + "True")) == if k <= 2 then Bool(true) else Null
  {
    LeadingBlanksToken(k);
    TrueInWindowTokens(k);
  }

  /** `parse_bool` maps its own results to themselves. */
  lemma ParseBoolIdempotent(v: Value)
    ensures ParseBool(ParseBool(v)) == ParseBool(v)
  {
    var r := ParseBool(v);
    if r.Bool? {
      ParseBoolOfBool(r.b);
    } else {
      ParseBoolOfNull();
    }
  }

  /** `parse_str(value)`: `str(value)`, except that `None` stays `None`. */
  function ParseStr(v: Value): (r: Value)
    ensures r == Null <==> v == Null
    ensures r != Null ==> r.Str?
  {
    if v.Null? then Null else Str(Show(v))
  }

  /** Strings pass through `parse_str` unchanged, so `parse_str` is idempotent. */
  lemma ParseStrKeepsStrings(v: Value)
    ensures v.Str? ==> ParseStr(v) == v
    ensures ParseStr(ParseStr(v)) == ParseStr(v)
  {
  }

  /** A non-negative integer becomes its decimal digits, which read back as the integer. */
  lemma ParseStrOfNatural(n: nat)
    ensures ParseStr(Int(n)).Str?
    ensures forall i :: 0 <= i < |ParseStr(Int(n)).s| ==> '0' <= ParseStr(Int(n)).s[i] <= '9'
    ensures DigitsValue(ParseStr(Int(n)).s) == n
  {
    NaturalRoundTrip(n);
  }

  /** `str()` of the other scalars: a boolean prints as its Python name, and a negative
      integer as a minus sign followed by the digits of its magnitude. */
  lemma ParseStrOfScalars(b: bool, n: int)
    ensures ParseStr(Bool(b)) == Str(if b then "True" else "False")
    ensures n < 0 ==> ParseStr(Int(n)).Str? && |ParseStr(Int(n)).s| > 1 && ParseStr(Int(n)).s[0] == '-'
    ensures n < 0 ==> (forall i :: 1 <= i < |ParseStr(Int(n)).s| ==> '0' <= ParseStr(Int(n)).s[i] <= '9')
    ensures n < 0 ==> DigitsValue(ParseStr(Int(n)).s[1..]) == -n
  {
    if n < 0 {
      NaturalRoundTrip(-n);
      assert ParseStr(Int(n)).s[1..] == Natural(-n);
    }
  }

  /** `parse_list(value)`: `[str(v) for v in value]`, or `None` when `value` is not iterable. */
  function ParseList(v: Value): (r: Value)
    ensures r == Null <==> Iterate(v).Raise?
    ensures r.List? ==> |r.items| == |Iterate(v).value|
    ensures r.List? ==> forall i :: 0 <= i < |r.items| ==> r.items[i] == Str(Show(Iterate(v).value[i]))
  {
    match Iterate(v)
    case Raise(_) => Null
    case Ok(xs) => List(seq(|xs|, i requires 0 <= i < |xs| => Str(Show(xs[i]))))
  }

  /** Strings list their characters and dictionaries their keys, in order. */
  lemma ParseListOfTextAndRecords(v: Value)
    ensures v.Str? ==> ParseList(v) == List(seq(|v.s|, i requires 0 <= i < |v.s| => Str([v.s[i]])))
    ensures v.Record? ==> ParseList(v) == List(seq(|v.members|, i requires 0 <= i < |v.members| => Str(v.members[i].key)))
    ensures v.List? ==> ParseList(v).List? && |ParseList(v).items| == |v.items|
  {
  }

  /** A list of strings is left as it is, so `parse_list` is idempotent. */
  lemma ParseListIdempotent(v: Value)
    ensures ParseList(ParseList(v)) == ParseList(v)
  {
  }
}

=== FILE: pytext.dfy ===
/** The Python `str` operations the record-cleaning engine and its helpers rely on,
    over strings as sequences of Unicode code points. */
module PyText {

  /** `c.isspace()`: the characters `str.strip()` removes when given no argument. */
  predicate IsSpace(c: char) {
    || c == ' '
    || ('\t' <= c <= '\r')
    || ('\U{1C}' <= c <= '\U{1F}')
    || c == '\U{85}' || c == '\U{A0}' || c == '\U{1680}'
    || ('\U{2000}' <= c <= '\U{200A}')
    || c == '\U{2028}' || c == '\U{2029}' || c == '\U{202F}' || c == '\U{205F}' || c == '\U{3000}'
  }

  /** `s.lstrip()`. */
  function LStrip(s: string): (r: string)
    ensures |r| <= |s| && r == s[|s| - |r|..]
  {
    if |s| > 0 && IsSpace(s[0]) then LStrip(s[1..]) else s
  }

  /** `s.lstrip()` removes exactly the leading white space. */
  lemma {:induction false} LStripShape(s: string)
    ensures forall i :: 0 <= i < |s| - |LStrip(s)| ==> IsSpace(s[i])
    ensures |LStrip(s)| > 0 ==> !IsSpace(LStrip(s)[0])
  {
    if |s| > 0 && IsSpace(s[0]) {
      LStripShape(s[1..]);
      assert forall i :: 1 <= i < |s| ==> s[1..][i - 1] == s[i];
    }
  }

  /** `s.rstrip()`. */
  function RStrip(s: string): (r: string)
    ensures |r| <= |s| && r == s[..|r|]
  {
    if |s| > 0 && IsSpace(s[|s| - 1]) then RStrip(s[..|s| - 1]) else s
  }

  /** `s.rstrip()` removes exactly the trailing white space. */
  lemma {:induction false} RStripShape(s: string)
    ensures forall i :: |RStrip(s)| <= i < |s| ==> IsSpace(s[i])
    ensures |RStrip(s)| > 0 ==> !IsSpace(RStrip(s)[|RStrip(s)| - 1])
  {
    if |s| > 0 && IsSpace(s[|s| - 1]) {
      RStripShape(s[..|s| - 1]);
    }
  }

  /** `s.strip()`. */
  function Strip(s: string): string {
    RStrip(LStrip(s))
  }

  /** `s.strip()` neither starts nor ends with white space. */
  lemma StripEnds(s: string)
    ensures var r := Strip(s); |r| > 0 ==> !IsSpace(r[0]) && !IsSpace(r[|r| - 1])
  {
    var l := LStrip(s);
    LStripShape(s);
    RStripShape(l);
  }

  /** `s.strip()` is empty exactly when `s` is all white space. */
  lemma StripBlank(s: string)
    ensures Strip(s) == [] <==> forall i :: 0 <= i < |s| ==> IsSpace(s[i])
  {
    var l := LStrip(s);
    LStripShape(s);
    RStripShape(l);
  }

  /** Stripping twice is stripping once. */
  lemma StripIdempotent(s: string)
    ensures Strip(Strip(s)) == Strip(s)
  {
    var r := Strip(s);
    StripEnds(s);
    if |r| > 0 {
      assert LStrip(r) == r;
      assert RStrip(r) == r;
    }
  }

  predicate IsUpperAscii(c: char) { 'A' <= c <= 'Z' }
  predicate IsLowerAscii(c: char) { 'a' <= c <= 'z' }
  predicate IsAsciiLetter(c: char) { IsUpperAscii(c) || IsLowerAscii(c) }

  function AsciiUpper(c: char): (r: char)
    ensures !IsLowerAscii(r) && IsAsciiLetter(r) == IsAsciiLetter(c)
  {
    if IsLowerAscii(c) then (c as int - 32) as char else c
  }

  function AsciiLower(c: char): (r: char)
    ensures !IsUpperAscii(r) && IsAsciiLetter(r) == IsAsciiLetter(c)
  {
    if IsUpperAscii(c) then (c as int + 32) as char else c
  }

  /** `c.lower()` for ASCII, Latin-1 and the basic Cyrillic block; other characters are kept. */
  function LowerChar(c: char): char {
    if IsUpperAscii(c) || ('\U{C0}' <= c <= '\U{DE}' && c != '\U{D7}') || ('\U{410}' <= c <= '\U{42F}') then
      (c as int + 32) as char
    else if '\U{400}' <= c <= '\U{40F}' then
      (c as int + 80) as char
    else
      c
  }

  /** `s.lower()`. */
  function Lower(s: string): (r: string)
    ensures |r| == |s|
  {
    if |s| == 0 then [] else [LowerChar(s[0])] + Lower(s[1..])
  }

  /** `s.lower()` lower-cases each character in place. */
  lemma {:induction false} LowerAt(s: string)
    ensures forall i :: 0 <= i < |s| ==> Lower(s)[i] == LowerChar(s[i])
  {
    if |s| > 0 {
      LowerAt(s[1..]);
      assert forall i :: 1 <= i < |s| ==> Lower(s)[i] == Lower(s[1..])[i - 1] && s[1..][i - 1] == s[i];
    }
  }

  /** `str.title()` restricted to ASCII letters: a letter that follows a letter is
      lower-cased, every other letter is upper-cased, and other characters are kept. */
  function TitleFrom(s: string, afterLetter: bool): (r: string)
    ensures |r| == |s|
    ensures |s| > 0 ==> r[0] == (if afterLetter then AsciiLower(s[0]) else AsciiUpper(s[0]))
  {
    if |s| == 0 then []
    else
      var c := if afterLetter then AsciiLower(s[0]) else AsciiUpper(s[0]);
      [c] + TitleFrom(s[1..], IsAsciiLetter(s[0]))
  }

  /** Past the first character, a letter is lower-cased after a letter and upper-cased
      anywhere else. */
  lemma {:induction false} TitleAt(s: string, afterLetter: bool)
    ensures forall i :: 0 < i < |s| ==> TitleFrom(s, afterLetter)[i] == (if IsAsciiLetter(s[i - 1]) then AsciiLower(s[i]) else AsciiUpper(s[i]))
  {
    if |s| > 0 {
      var r := TitleFrom(s, afterLetter);
      var t := TitleFrom(s[1..], IsAsciiLetter(s[0]));
      TitleAt(s[1..], IsAsciiLetter(s[0]));
      forall i | 0 < i < |s|
        ensures r[i] == (if IsAsciiLetter(s[i - 1]) then AsciiLower(s[i]) else AsciiUpper(s[i]))
      {
        assert r[i] == t[i - 1];
        assert s[1..][i - 1] == s[i];
        if i > 1 {
          assert s[1..][i - 2] == s[i - 1];
        }
      }
    }
  }

  function Title(s: string): (r: string)
    ensures |r| == |s|
  {
    TitleFrom(s, false)
  }

  function DigitChar(d: int): (c: char)
    requires 0 <= d < 10
    ensures '0' <= c <= '9'
  {
    ('0' as int + d) as char
  }

  /** The decimal digits of `n`, without leading zeros. */
  function Natural(n: nat): (r: string)
    ensures |r| > 0
    ensures forall i :: 0 <= i < |r| ==> '0' <= r[i] <= '9'
  {
    if n < 10 then [DigitChar(n)] else Natural(n / 10) + [DigitChar(n % 10)]
  }

  /** `str(n)` for a Python `int`. */
  function Decimal(n: int): (r: string)
    ensures |r| > 0
  {
    if n < 0 then "-" + Natural(-n) else Natural(n)
  }

  /** The number a string of decimal digits denotes: the inverse of `Natural`. */
  function DigitsValue(s: string): nat
    requires forall i :: 0 <= i < |s| ==> '0' <= s[i] <= '9'
  {
    if |s| == 0 then 0 else 10 * DigitsValue(s[..|s| - 1]) + (s[|s| - 1] as int - '0' as int)
  }

  /** Reading back the digits of a natural number gives the number. */
  lemma {:induction false} NaturalRoundTrip(n: nat)
    ensures DigitsValue(Natural(n)) == n
  {
    if n >= 10 {
      NaturalRoundTrip(n / 10);
      var r := Natural(n);
      assert r[..|r| - 1] == Natural(n / 10);
    }
  }

  /** Only the numbers 0..9 print as a single character. */
  lemma {:induction false} NaturalSingleDigit(n: nat)
    ensures |Natural(n)| == 1 <==> n < 10
  {
    if n >= 10 {
      assert |Natural(n)| == |Natural(n / 10)| + 1;
    }
  }

  /** `str(n)` is a single character exactly for 0..9, and that character is the digit of `n`. */
  lemma DecimalSingleChar(n: int)
    ensures |Decimal(n)| == 1 <==> 0 <= n < 10
    ensures 0 <= n < 10 ==> Decimal(n) == [DigitChar(n)]
  {
    if n < 0 {
      assert |Decimal(n)| == 1 + |Natural(-n)|;
    } else {
      NaturalSingleDigit(n);
    }
  }

  /** `t` occurs in `s` starting at index `i`. */
  predicate OccursAt(s: string, t: string, i: int) {
    0 <= i <= |s| - |t| && s[i..i + |t|] == t
  }

  /** Python's `t in s`. */
  predicate Contains(s: string, t: string) {
    exists i :: 0 <= i <= |s| - |t| && OccursAt(s, t, i)
  }

  /** `s.replace(t, '')`: one left-to-right pass deleting non-overlapping occurrences of `t`. */
  function RemoveAll(s: string, t: string): (r: string)
    ensures |r| <= |s|
    decreases |s|
  {
    if |t| == 0 || |s| < |t| then s
    else if s[..|t|] == t then RemoveAll(s[|t|..], t)
    else [s[0]] + RemoveAll(s[1..], t)
  }

  /** Removing a text that does not occur leaves the string as it is. */
  lemma {:induction false} RemoveAllAbsent(s: string, t: string)
    requires !Contains(s, t)
    ensures RemoveAll(s, t) == s
    decreases |s|
  {
    if |t| == 0 {
    } else if |s| < |t| {
    } else {
      assert !OccursAt(s, t, 0);
      assert !Contains(s[1..], t) by {
        forall i | OccursAt(s[1..], t, i)
          ensures OccursAt(s, t, i + 1)
        {
          assert s[1..][i..i + |t|] == s[i + 1..i + 1 + |t|];
        }
      }
      RemoveAllAbsent(s[1..], t);
    }
  }

  /** Removing a non-empty text that occurs makes the string strictly shorter. */
  lemma {:induction false} RemoveAllShrinks(s: string, t: string)
    requires |t| > 0 && Contains(s, t)
    ensures |RemoveAll(s, t)| < |s|
    decreases |s|
  {
    var i :| 0 <= i <= |s| - |t| && OccursAt(s, t, i);
    if s[..|t|] == t {
    } else {
      assert s[i..i + |t|] == t;
      assert s[0..|t|] == s[..|t|];
      assert i > 0;
      assert s[1..][i - 1..i - 1 + |t|] == s[i..i + |t|];
      assert OccursAt(s[1..], t, i - 1);
      RemoveAllShrinks(s[1..], t);
    }
  }

  /** Removing a non-empty text from itself leaves nothing. */
  lemma RemoveAllSelf(t: string)
    requires |t| > 0
    ensures RemoveAll(t, t) == []
  {
    assert t[..|t|] == t;
    assert t[|t|..] == [];
  }
}

=== FILE: values.dfy ===
/** The slice of Python's object model the engine touches: JSON-like values, the
    exceptions it raises or catches, item lookup and assignment on dictionaries,
    iteration, truthiness, hashing and `str()`. */
module Values {
  import opened PyText

  /** A decoded JSON value. Dictionaries keep insertion order, as Python's do. */
  datatype Value =
    | Null
    | Bool(b: bool)
    | Int(i: int)
    | Str(s: string)
    | List(items: seq<Value>)
    | Record(members: seq<Member>)

  datatype Member = Member(key: string, val: Value)

  datatype Option<+T> = None | Some(value: T)

  /** The exceptions the engine raises, catches or lets through. */
  datatype Error =
    | KeyErr                                      // KeyError: a missing dictionary key
    | TypeErr                                     // TypeError: wrong argument shape, not subscriptable, not iterable
    | AttrErr                                     // AttributeError: an object without the required capabilities
    | InterfaceErr(selector: string)              // InterfaceError: the record lacks the selector key
    | NotFound(id: Value)                         // InterfaceNotFoundError: no table for this selector value
    | BadInterface(id: Value, extra: set<string>) // BadInterfaceError: a table names fields the model lacks
    | Other(name: string)                         // any other exception a transform may raise

  /** `InterfaceError` derives from `KeyError`, and both other interface errors derive from it,
      so `except KeyError` catches all four. */
  predicate IsKeyError(e: Error) {
    e.KeyErr? || e.InterfaceErr? || e.NotFound? || e.BadInterface?
  }

  /** The errors `model.match` turns into a `None` field: `KeyError` and its subclasses, and `TypeError`. */
  predicate Absorbed(e: Error) {
    IsKeyError(e) || e.TypeErr?
  }

  /** A computation that returns a value or raises an exception. */
  datatype Outcome<+T> = Ok(value: T) | Raise(error: Error) {
    predicate IsFailure() {
      Raise?
    }

    function PropagateFailure<U>(): Outcome<U>
      requires Raise?
    {
      Raise(error)
    }

    function Extract(): T
      requires Ok?
    {
      value
    }

    function GetOr(default: T): T {
      match this
      case Ok(v) => v
      case Raise(_) => default
    }
  }

  /** Element `i` is the first for which `f` raises, and it raises `e`. */
  predicate FailsFirst<X, T>(xs: seq<X>, f: X -> Outcome<T>, i: int, e: Error) {
    && 0 <= i < |xs|
    && f(xs[i]) == Raise(e)
    && forall j :: 0 <= j < i ==> f(xs[j]).Ok?
  }

  /** A loop that appends `f(x)` for each `x` in order and lets the first error escape. */
  function MapEach<X, T>(xs: seq<X>, f: X -> Outcome<T>): (r: Outcome<seq<T>>)
    ensures r.Ok? <==> forall i :: 0 <= i < |xs| ==> f(xs[i]).Ok?
    ensures r.Ok? ==> |r.value| == |xs|
    ensures r.Ok? ==> forall i :: 0 <= i < |xs| ==> f(xs[i]) == Ok(r.value[i])
    ensures r.Raise? ==> exists i :: FailsFirst(xs, f, i, r.error)
  {
    if |xs| == 0 then Ok([])
    else
      var head := f(xs[0]);
      if head.Raise? then
        assert FailsFirst(xs, f, 0, head.error);
        Raise(head.error)
      else
      var rest := MapEach(xs[1..], f);
      assert forall j :: 0 <= j < |xs| - 1 ==> xs[1..][j] == xs[j + 1];
      if rest.Raise? then
        var i :| FailsFirst(xs[1..], f, i, rest.error);
        assert FailsFirst(xs, f, i + 1, rest.error);
        rest
      else
        Ok([head.value] + rest.value)
  }

  /** `s` after `j + 1` applications of `step`, stopping at the first that raises. */
  function Stepped<S>(s: S, step: S -> Outcome<S>, j: nat): Outcome<S>
    decreases j
  {
    var w :- step(s);
    if j == 0 then Ok(w) else Stepped(w, step, j - 1)
  }

  /** What `Thread` emits for element `j`: `emit` applied to the state after `j + 1` steps. */
  function EmitAt<S, X, U>(s: S, xs: seq<X>, step: S -> Outcome<S>, emit: (S, X) -> Outcome<U>, j: nat): Outcome<U>
    requires j < |xs|
  {
    var w :- Stepped(s, step, j);
    emit(w, xs[j])
  }

  /** Element `j` is the first whose output `Thread` cannot produce; it raises `e`. */
  predicate ThreadFailsFirst<S, X, U>(s: S, xs: seq<X>, step: S -> Outcome<S>, emit: (S, X) -> Outcome<U>, j: int, e: Error) {
    && 0 <= j < |xs|
    && EmitAt(s, xs, step, emit, j) == Raise(e)
    && forall l :: 0 <= l < j ==> EmitAt(s, xs, step, emit, l).Ok?
  }

  /** Element `j > 0` of `xs` is element `j - 1` of `xs[1..]`, one step further on. */
  lemma EmitAtStep<S, X, U>(s: S, xs: seq<X>, step: S -> Outcome<S>, emit: (S, X) -> Outcome<U>, j: nat)
    requires 0 < j < |xs| && step(s).Ok?
    ensures EmitAt(s, xs, step, emit, j) == EmitAt(step(s).value, xs[1..], step, emit, j - 1)
  {
    assert xs[1..][j - 1] == xs[j];
  }

  /** For each element in order: take one step of the state, then emit from the new state and
      the element; the first step or emit that raises ends the walk with its error. */
  function Thread<S, X, U>(s: S, xs: seq<X>, step: S -> Outcome<S>, emit: (S, X) -> Outcome<U>): (r: Outcome<seq<U>>)
    ensures r.Ok? <==> forall j :: 0 <= j < |xs| ==> EmitAt(s, xs, step, emit, j).Ok?
    ensures r.Ok? ==> |r.value| == |xs|
    ensures r.Ok? ==> forall j :: 0 <= j < |xs| ==> EmitAt(s, xs, step, emit, j) == Ok(r.value[j])
    ensures r.Raise? ==> exists j :: ThreadFailsFirst(s, xs, step, emit, j, r.error)
    decreases |xs|
  {
    if |xs| == 0 then Ok([])
    else
      var w := step(s);
      if w.Raise? then
        assert ThreadFailsFirst(s, xs, step, emit, 0, w.error);
        Raise(w.error)
      else
      var head := emit(w.value, xs[0]);
      if head.Raise? then
        assert ThreadFailsFirst(s, xs, step, emit, 0, head.error);
        Raise(head.error)
      else
      var rest := Thread(w.value, xs[1..], step, emit);
      assert forall j :: 0 < j < |xs| ==> EmitAt(s, xs, step, emit, j) == EmitAt(w.value, xs[1..], step, emit, j - 1) by {
        forall j | 0 < j < |xs|
          ensures EmitAt(s, xs, step, emit, j) == EmitAt(w.value, xs[1..], step, emit, j - 1)
        {
          EmitAtStep(s, xs, step, emit, j);
        }
      }
      if rest.Raise? then
        var i :| ThreadFailsFirst(w.value, xs[1..], step, emit, i, rest.error);
        assert ThreadFailsFirst(s, xs, step, emit, i + 1, rest.error);
        rest
      else
        Ok([head.value] + rest.value)
  }

  /** Python truthiness: `None`, `False`, `0` and empty containers are false. */
  predicate Truthy(v: Value) {
    match v
    case Null => false
    case Bool(b) => b
    case Int(i) => i != 0
    case Str(s) => s != []
    case List(xs) => xs != []
    case Record(ms) => ms != []
  }

  /** Lists and dictionaries cannot be dictionary keys. */
  predicate Hashable(v: Value) {
    !v.List? && !v.Record?
  }

  function NumberOf(v: Value): int
    requires v.Bool? || v.Int?
  {
    if v.Bool? then (if v.b then 1 else 0) else v.i
  }

  /** Python `==` between keys: `True == 1` and `False == 0`; otherwise structural equality. */
  predicate KeyEq(a: Value, b: Value) {
    if (a.Bool? || a.Int?) && (b.Bool? || b.Int?) then NumberOf(a) == NumberOf(b) else a == b
  }

  /** The keys of a dictionary in insertion order. */
  function Keys(ms: seq<Member>): (ks: seq<string>)
    ensures |ks| == |ms|
    ensures forall i :: 0 <= i < |ms| ==> ks[i] == ms[i].key
  {
    seq(|ms|, i requires 0 <= i < |ms| => ms[i].key)
  }

  predicate Distinct<T(==)>(xs: seq<T>) {
    forall i, j :: 0 <= i < j < |xs| ==> xs[i] != xs[j]
  }

  /** The position of key `k`, or `|ms|` when it is absent. */
  function FindKey(ms: seq<Member>, k: string): (i: nat)
    ensures i <= |ms|
    ensures i < |ms| ==> ms[i].key == k
    ensures forall j :: 0 <= j < i ==> ms[j].key != k
  {
    if |ms| == 0 then 0
    else if ms[0].key == k then 0
    else 1 + FindKey(ms[1..], k)
  }

  /** `FindKey` runs off the end exactly when the key is absent. */
  lemma FindKeyAbsent(ms: seq<Member>, k: string)
    ensures FindKey(ms, k) == |ms| <==> k !in Keys(ms)
  {
    var i := FindKey(ms, k);
    if i < |ms| {
      assert Keys(ms)[i] == k;
    } else {
      assert forall j :: 0 <= j < |ms| ==> Keys(ms)[j] != k;
    }
  }

  /** The first position holding key `k` is the one `FindKey` reports. */
  lemma FindKeyFirst(ms: seq<Member>, k: string, i: nat)
    requires i < |ms| && ms[i].key == k
    requires forall j :: 0 <= j < i ==> ms[j].key != k
    ensures FindKey(ms, k) == i
  {
  }

  /** `v[k]` for a string key: `KeyError` when a dictionary lacks it, `TypeError` when `v` is not a dictionary. */
  function GetItem(v: Value, k: string): (r: Outcome<Value>)
    ensures !v.Record? ==> r == Raise(TypeErr)
    ensures v.Record? ==> (r.Ok? <==> k in Keys(v.members))
    ensures v.Record? && r.Raise? ==> r.error == KeyErr
    ensures r.Ok? ==> Member(k, r.value) in v.members
  {
    match v
    case Record(ms) =>
      FindKeyAbsent(ms, k);
      var i := FindKey(ms, k);
      if i < |ms| then Ok(ms[i].val) else Raise(KeyErr)
    case _ => Raise(TypeErr)
  }

  /** `d[k] = x` on a dictionary's members: an existing key keeps its place, a new key goes last. */
  function SetMember(ms: seq<Member>, k: string, x: Value): seq<Member> {
    var i := FindKey(ms, k);
    if i < |ms| then ms[i := Member(k, x)] else ms + [Member(k, x)]
  }

  /** An existing key keeps the order of the keys; a new key is appended last. */
  lemma SetMemberKeys(ms: seq<Member>, k: string, x: Value)
    ensures k in Keys(ms) ==> Keys(SetMember(ms, k, x)) == Keys(ms)
    ensures k !in Keys(ms) ==> SetMember(ms, k, x) == ms + [Member(k, x)]
  {
    FindKeyAbsent(ms, k);
    var i := FindKey(ms, k);
    if i < |ms| {
      assert Keys(ms[i := Member(k, x)]) == Keys(ms);
    }
  }

  /** After `d[k] = x`, looking up `k` gives `x`. */
  lemma SetMemberSame(ms: seq<Member>, k: string, x: Value)
    ensures GetItem(Record(SetMember(ms, k, x)), k) == Ok(x)
  {
    FindKeyFirst(SetMember(ms, k, x), k, FindKey(ms, k));
  }

  /** After `d[k] = x`, every other key looks up as before. */
  lemma SetMemberOther(ms: seq<Member>, k: string, x: Value, k': string)
    requires k' != k
    ensures GetItem(Record(SetMember(ms, k, x)), k') == GetItem(Record(ms), k')
  {
    var r := SetMember(ms, k, x);
    var j := FindKey(ms, k');
    if j < |ms| {
      assert r[j] == ms[j];
      FindKeyFirst(r, k', j);
    } else {
      assert forall l :: 0 <= l < |r| ==> r[l].key != k';
      assert k' !in Keys(r);
    }
  }

  /** `v[k] = x` on a dictionary. */
  function SetItem(v: Value, k: string, x: Value): (r: Value)
    requires v.Record?
    ensures r.Record?
    ensures GetItem(r, k) == Ok(x)
    ensures forall k' :: k' != k ==> GetItem(r, k') == GetItem(v, k')
    ensures k in Keys(v.members) ==> Keys(r.members) == Keys(v.members)
    ensures k !in Keys(v.members) ==> Keys(r.members) == Keys(v.members) + [k]
  {
    SetMemberSame(v.members, k, x);
    SetMemberKeys(v.members, k, x);
    forall k' | k' != k
      ensures GetItem(Record(SetMember(v.members, k, x)), k') == GetItem(v, k')
    {
      SetMemberOther(v.members, k, x, k');
    }
    Record(SetMember(v.members, k, x))
  }

  /** Assigning a key twice is assigning it once, with the second value. */
  lemma SetItemTwice(v: Value, k: string, x: Value, y: Value)
    requires v.Record?
    ensures SetItem(SetItem(v, k, x), k, y) == SetItem(v, k, y)
  {
    SetMemberTwice(v.members, k, x, y);
  }

  lemma SetMemberTwice(ms: seq<Member>, k: string, x: Value, y: Value)
    ensures SetMember(SetMember(ms, k, x), k, y) == SetMember(ms, k, y)
  {
    var i := FindKey(ms, k);
    if i < |ms| {
      SetMemberTwiceAt(ms, k, x, y, i);
    } else {
      SetMemberTwiceNew(ms, k, x, y);
    }
  }

  lemma SetMemberTwiceAt(ms: seq<Member>, k: string, x: Value, y: Value, i: nat)
    requires i < |ms| && FindKey(ms, k) == i
    ensures SetMember(SetMember(ms, k, x), k, y) == SetMember(ms, k, y)
  {
    var ms1 := ms[i := Member(k, x)];
    assert SetMember(ms, k, x) == ms1;
    FindKeyFirst(ms1, k, i);
    assert ms1[i := Member(k, y)] == ms[i := Member(k, y)];
  }

  lemma SetMemberTwiceNew(ms: seq<Member>, k: string, x: Value, y: Value)
    requires FindKey(ms, k) == |ms|
    ensures SetMember(SetMember(ms, k, x), k, y) == SetMember(ms, k, y)
  {
    var ms1 := ms + [Member(k, x)];
    assert SetMember(ms, k, x) == ms1;
    FindKeyFirst(ms1, k, |ms|);
    assert ms1[|ms| := Member(k, y)] == ms + [Member(k, y)];
  }

  /** `for x in v`: list items, the one-character strings of a string, the keys of a
      dictionary; `None`, booleans and integers are not iterable. */
  function Iterate(v: Value): (r: Outcome<seq<Value>>)
    ensures r.Raise? <==> v.Null? || v.Bool? || v.Int?
    ensures r.Raise? ==> r.error == TypeErr
    ensures v.List? ==> r == Ok(v.items)
    ensures v.Str? ==> r.Ok? && |r.value| == |v.s|
    ensures v.Str? ==> forall i :: 0 <= i < |v.s| ==> r.value[i] == Str([v.s[i]])
    ensures v.Record? ==> r.Ok? && |r.value| == |v.members|
    ensures v.Record? ==> forall i :: 0 <= i < |v.members| ==> r.value[i] == Str(v.members[i].key)
  {
    match v
    case List(xs) => Ok(xs)
    case Str(s) => Ok(seq(|s|, i requires 0 <= i < |s| => Str([s[i]])))
    case Record(ms) => Ok(seq(|ms|, i requires 0 <= i < |ms| => Str(ms[i].key)))
    case _ => Raise(TypeErr)
  }

  function HexDigit(d: int): char
    requires 0 <= d < 16
  {
    if d < 10 then DigitChar(d) else ('a' as int + d - 10) as char
  }

  /** One character inside `repr()` of a string delimited by `quote`. */
  function EscapeChar(c: char, quote: char): string {
    if c == quote || c == '\\' then ['\\', c]
    else if c == '\t' then "\\t"
    else if c == '\n' then "\\n"
    else if c == '\r' then "\\r"
    else if c < ' ' || ('\U{7F}' <= c <= '\U{A0}') || c == '\U{AD}' then
      ['\\', 'x', HexDigit(c as int / 16), HexDigit(c as int % 16)]
    else [c]
  }

  function Escaped(s: string, quote: char): string {
    if |s| == 0 then "" else EscapeChar(s[0], quote) + Escaped(s[1..], quote)
  }

  /** `repr(s)`: single quotes unless the text holds a single quote and no double quote. */
  function QuoteString(s: string): string {
    var q := if '\'' in s && '"' !in s then '"' else '\'';
    [q] + Escaped(s, q) + [q]
  }

  /** `repr(v)`. */
  function Repr(v: Value): (r: string)
    ensures |r| > 0
  {
    match v
    case Null => "None"
    case Bool(b) => if b then "True" else "False"
    case Int(i) => Decimal(i)
    case Str(s) => QuoteString(s)
    case List(xs) => "[" + JoinReprs(xs) + "]"
    case Record(ms) => "{" + JoinMembers(ms) + "}"
  }

  function JoinReprs(xs: seq<Value>): string {
    if |xs| == 0 then ""
    else if |xs| == 1 then Repr(xs[0])
    else Repr(xs[0]) + ", " + JoinReprs(xs[1..])
  }

  function JoinMembers(ms: seq<Member>): string {
    if |ms| == 0 then ""
    else
      var m := QuoteString(ms[0].key) + ": " + Repr(ms[0].val);
      if |ms| == 1 then m else m + ", " + JoinMembers(ms[1..])
  }

  /** `str(v)`: a string is itself, everything else is its `repr`. */
  function Show(v: Value): (r: string)
    ensures v.Str? ==> r == v.s
    ensures v.List? ==> |r| > 0 && r[0] == '['
    ensures v.Record? ==> |r| > 0 && r[0] == '{'
  {
    if v.Str? then v.s else Repr(v)
  }
}
